=== FILE: README.md ===
# A Dafny model of the Xnonid HTTP server core

This project models the request-dispatch step of the Xnonid hello-world
HTTP server and the small framework classes around it:

- `BusinessThreadUtil` hands each inbound message to a fixed pool of two
  worker threads. The pool is fed by a queue of at most 100000 tasks. A task
  answers an `HttpRequest` with an HTTP/1.1 `200 OK` `text/plain` response
  carrying the given content. When the request does not ask for keep-alive,
  the task closes the channel after the write. Otherwise the response
  carries `Connection: keep-alive` (module `Business`).
- `Http.RequestBody` offers views of a parsed body: the checked cast
  `as` and the `asText`, `asJson`, `asXml`, `asRaw`,
  `asMultipartFormData` and `parseJson` views built on it. It also offers
  the best-effort form view `asFormUrlEncoded`, the conversion `asBytes`
  (which serialises forms as `key=value&...`) and `toString` (module
  `HttpBody`).
- `Http.MultipartFormData` holds file parts, with the file-part
  constructors' defaults and the `getFile` lookup by key (module
  `Multipart`).
- `ExceptionUtils.getStackFrames` cuts a printed stack trace into lines
  with a `StringTokenizer` (module `StackFrames`).
- `SourceProvider` finds the calling frame on the stack, skipping a set
  of class names (module `SourceProvider`).
- `NamedImpl` is the value form of the `@Named` qualifier. The model
  covers its `equals`, its `toString` and its annotation hash code in
  32-bit arithmetic (module `Named`).
- `Mode` is the Java application mode, with its `asScala` conversion
  (module `Mode`).

Module `Common` holds `Option`, `Result`, bytes, and the UTF-8 and UTF-16
encodings of strings. UTF-8 is what `ByteString.fromString` produces;
UTF-16 code units are what `String.hashCode` ranges over.

Model conventions:

- Java `null` is `None` or a `Null` case.
- A thrown exception is an `Err`.
- Library calls whose code is not part of this model are function-valued
  parameters of a `Library` value:
  - `URLEncoder.encode`
  - `Json.stringify`
  - `XML.toBytes`
  - `RawBuffer.asBytes`
  - `getClass().getName()`
  - `Json.fromJson`
- These inputs are explicit parameters:
  - the keep-alive decision of `HttpUtil.isKeepAlive`;
  - the platform line separator;
  - the printed stack trace;
  - the current stack.

The worker pool is modelled as a sequential state machine. `Submit`
starts a task on a free worker, queues it, or rejects it as the
executor's abort policy does. `Complete` finishes a running task and
moves the head of the queue onto the freed worker.

A full queue makes `executor.submit` throw `RejectedExecutionException`
to the caller under the executor's default abort policy; `Business.Submit`
returns `Rejected` and leaves the pool as it was. A task writes its
response without looking at the state of the connection.

## Model

| member | source | states |
|---|---|---|
| Business.DoBusiness | src/main/java/BusinessThreadUtil.java:24-45 | A message that is not an `HttpRequest` has no effect on the channel, and neither does a request with null content, whose task throws. Any other request gets a write-and-flush of a well-formed 200 response. A close follows exactly when the request is not keep-alive, and nothing else happens. |
| Business.DoBusinessWritesOnce | src/main/java/BusinessThreadUtil.java:25-43 | A task writes exactly one response for a request with non-null content and none for any other task. |
| Business.BuildResponse | src/main/java/BusinessThreadUtil.java:35-42 | The response is HTTP/1.1 200 OK and carries the content unchanged. Looked up case-insensitively, `Content-Type` is `text/plain`. `Content-Length` parses back to the number of content bytes and has no leading zero. `Connection` is `keep-alive` exactly for keep-alive requests and absent otherwise. Every header is named exactly `Content-Type`, `Content-Length` or (for keep-alive) `Connection`, and no name appears twice. |
| Business.SetHeader | src/main/java/BusinessThreadUtil.java:36-41 | `set` adds no header other than the one it is given: every header afterwards was there before or is the new one. |
| Business.SetHeaderDistinct | src/main/java/BusinessThreadUtil.java:36-41 | `set` keeps header names distinct, ignoring ASCII case. |
| Business.RemoveAllDistinct | src/main/java/BusinessThreadUtil.java:36-41 | Removing every header of one name keeps the other names distinct. |
| Business.GetAfterSet | src/main/java/BusinessThreadUtil.java:36-41 | After `set(name, value)`, every lookup of a name equal to `name` ignoring ASCII case yields `value`. Every other lookup is unchanged. |
| Business.GetRemoveAll | src/main/java/BusinessThreadUtil.java:36-41 | Removing the headers named `name` makes lookups of that name fail and leaves every other lookup unchanged. |
| Business.GetIsFirstMatch | src/main/java/BusinessThreadUtil.java:36-41 | A header lookup fails exactly when no header has the name, ignoring ASCII case. Otherwise it finds the value of the first header that has the name. |
| Business.DecimalRoundTrip | src/main/java/BusinessThreadUtil.java:37 | The decimal text `setInt` stores parses back to the same number. |
| Business.Decimal | src/main/java/BusinessThreadUtil.java:37 | The text `setInt` stores is non-empty, made of decimal digits only, and has no leading zero. |
| Business.Submit | src/main/java/BusinessThreadUtil.java:20 | For the pool of two workers and a queue of 100000, a task starts exactly when a worker is idle. It is rejected exactly when the queue is full, and a rejection leaves the pool unchanged. Otherwise it is appended to the queue. Every outcome keeps the pool's bounds. |
| Business.Complete | src/main/java/BusinessThreadUtil.java:20 | A finishing worker returns its task. The head of the queue, if any, takes the freed worker, and the bounds are kept. |
| Business.SubmitRejectsOnlyWhenFull | src/main/java/BusinessThreadUtil.java:20 | Submission is refused if and only if the queue holds 100000 tasks. |
| Business.SubmitConserves | src/main/java/BusinessThreadUtil.java:20 | A submission adds its task to the pending tasks, or leaves them as they were when it is rejected. |
| Business.CompleteConserves | src/main/java/BusinessThreadUtil.java:20 | Completion removes exactly the finished task from the pending tasks. |
| Business.Step | src/main/java/BusinessThreadUtil.java:20 | One event keeps the pool's bounds. The tasks leaving the queue, followed by the queue, are the old queue followed by the tasks entering it. |
| Business.Run | src/main/java/BusinessThreadUtil.java:20 | Any sequence of submissions and completions keeps the pool within two running tasks and 100000 waiting ones, with no task waiting while a worker is idle. |
| Business.RunIsFifo | src/main/java/BusinessThreadUtil.java:20 | Over any sequence of submissions and completions, tasks leave the queue in the order they entered it. |
| Business.StepConserves | src/main/java/BusinessThreadUtil.java:20 | One event neither loses nor duplicates a task: pending plus finished grows by exactly the admitted task. |
| Business.RunConservesTasks | src/main/java/BusinessThreadUtil.java:20 | Over any sequence of events, the pending and finished tasks together are the initial pending tasks plus every admitted task, as a multiset. |
| Business.OneWritePerRequest | src/main/java/BusinessThreadUtil.java:22-46 | Running any list of tasks writes exactly as many responses as there are requests with non-null content among them. |
| HttpBody.ClassOf | src/main/scala/server/mvc/Http.java:180 | Each of the ten tested classes has exactly its own kind of value: `Optional`, `ByteString`, `byte[]`, `String`, `String[]`, `RawBuffer`, `JsonNode`, `Document`, `Map` and `MultipartFormData` values map to their own class and to no other. Any other object keeps its own class name. |
| HttpBody.IsInstance | src/main/scala/server/mvc/Http.java:180 | `isInstance` is false for null and true of every non-null value for `Object`. For a class the code tests for, it holds exactly for that class's values. For any other class, it holds at least for values of that very class, and otherwise as the class hierarchy says. |
| HttpBody.As | src/main/scala/server/mvc/Http.java:179-185 | The cast yields the body exactly when the body is an instance of the class, and null otherwise. |
| HttpBody.AsSelectsOneClass | src/main/scala/server/mvc/Http.java:179-185 | Whatever the class hierarchy: a null body casts to nothing, a non-null body always casts to `Object`, a body of a tested class casts to that class, an object of another class casts to no tested class, and no body casts to two different tested classes. |
| HttpBody.AsText | src/main/scala/server/mvc/Http.java:78-80 | The result is a string exactly when the body is a `String`, and then it is that string. |
| HttpBody.AsJson | src/main/scala/server/mvc/Http.java:96-98 | The result is non-null exactly for a `JsonNode` body, and then it is the body. |
| HttpBody.AsXml | src/main/scala/server/mvc/Http.java:87-89 | The result is non-null exactly for a `Document` body, and then it is the body. |
| HttpBody.AsRaw | src/main/scala/server/mvc/Http.java:69-71 | The result is non-null exactly for a `RawBuffer` body, and then it is the body. |
| HttpBody.AsMultipartFormData | src/main/scala/server/mvc/Http.java:38-40 | The result is non-null exactly for a multipart body, and then it is the body. |
| HttpBody.ParseJson | src/main/scala/server/mvc/Http.java:112-116 | The result is empty exactly for a body that is not JSON. For a JSON body it holds the converted value, and `Optional.of` throws a `NullPointerException` exactly when the conversion gives null. |
| HttpBody.AsFormUrlEncoded | src/main/scala/server/mvc/Http.java:47-62 | The result is non-null exactly for a map that is empty or whose first entry maps a `String` to a `String[]`. It is the map itself, and the empty map for an empty map. |
| HttpBody.FormPairs | src/main/scala/server/mvc/Http.java:151-157 | The pairs are produced exactly when every entry has a `String` key and a `String[]` value without null elements. |
| HttpBody.PairsOf | src/main/scala/server/mvc/Http.java:155-156 | One key with its array gives one pair per array element, in order, each pairing the key with that element. |
| HttpBody.EncodePair | src/main/scala/server/mvc/Http.java:154-156 | One pair prints as the encoded key, then `=`, then the encoded value. |
| HttpBody.EncodePairs | src/main/scala/server/mvc/Http.java:151-157 | The pairs print one text each, in order. |
| HttpBody.FormPairsSucceedsIffWellTyped | src/main/scala/server/mvc/Http.java:150-158 | Serialising a form throws if and only if some entry's key is not a `String`, its value is not a `String[]`, or one of the array's elements is null. On success, one pair is produced per value. |
| HttpBody.FormPairsAppend | src/main/scala/server/mvc/Http.java:151-157 | The pairs of two lists of entries are the pairs of the first followed by those of the second. |
| HttpBody.EmptyEntryContributesNothing | src/main/scala/server/mvc/Http.java:153-156 | A key with no values adds nothing to the serialised form. |
| HttpBody.FormTextRoundTrip | src/main/scala/server/mvc/Http.java:150-158 | If URL encoding escapes `&` and `=`, cutting the form text at `&` and then at `=` gives back every encoded key and value pair, in order. |
| HttpBody.FormText | src/main/scala/server/mvc/Http.java:150-158 | The form text is empty exactly when the form has no pairs. |
| HttpBody.SplitJoin | src/main/scala/server/mvc/Http.java:158 | Joining parts that contain no separator and splitting at the separator gives the parts back. |
| Common.Join | src/main/scala/server/mvc/Http.java:158 | Joining no parts gives the empty text. Otherwise the text starts with the first part. |
| HttpBody.AsBytes | src/main/scala/server/mvc/Http.java:128-162 | There is one outcome per body class. Null and an absent `Optional` give empty bytes, and a present `Optional` gives null. Byte strings and byte arrays come back unchanged. Strings and JSON give bytes that decode as UTF-8 to the text. XML bodies give the library's bytes, and raw bodies whatever `RawBuffer.asBytes` gives, which is null for a buffer too large to keep in memory. A form gives the UTF-8 of its `key=value&...` text, or throws exactly when its serialisation throws. That needs more than one entry, or a null element in the first entry's array. Anything else gives null. |
| HttpBody.AsBytesOfTextIsUtf8 | src/main/scala/server/mvc/Http.java:139-144 | The bytes of a `String` or JSON body are exactly the standard UTF-8 encoding of its text. |
| HttpBody.EmptyFormGivesNoBytes | src/main/scala/server/mvc/Http.java:148-158 | An empty map converts to empty bytes. |
| HttpBody.ToString | src/main/scala/server/mvc/Http.java:187-189 | The text starts with `RequestBody of `. The rest is `null` exactly for a null body. For any other body it is `class ` followed by the name of the body's class, which for an object outside the tested classes is that object's own class name. |
| HttpBody.ToStringDistinguishesClasses | src/main/scala/server/mvc/Http.java:187-189 | Equal printed forms mean both bodies are null or neither is, and in the second case their classes have the same name. |
| Common.Utf8RoundTrip | src/main/scala/server/mvc/Http.java:139-140 | Decoding the UTF-8 bytes of any string gives the string back. |
| Common.Utf8Char | src/main/scala/server/mvc/Http.java:140 | Each character takes the shortest form: 1 byte below U+0080, 2 below U+0800, 3 below U+10000, and 4 otherwise. The lead byte announces the length, and the rest are continuation bytes. |
| Common.EncodingOfDecode | src/main/scala/server/mvc/Http.java:140 | Any bytes the decoder accepts as one character are exactly that character's encoding. |
| Common.Utf8OfDecode | src/main/scala/server/mvc/Http.java:140 | Any bytes that decode to a text are exactly that text's UTF-8 encoding, so each text has one encoding. |
| Common.Utf16Char | src/main/scala/server/inject/NamedImpl.java:32 | Each character is one 16-bit unit, or a surrogate pair from which the character is recovered. |
| Multipart.NewFilePartFull | src/main/scala/server/mvc/Http.java:247-260 | The six-argument constructor stores each argument in the field of that name. |
| Multipart.NewFilePart | src/main/scala/server/mvc/Http.java:239-241 | The four-argument constructor sets the given fields. The size is -1 and the disposition is `form-data`. |
| Multipart.NewFilePartSized | src/main/scala/server/mvc/Http.java:243-245 | The five-argument constructor sets the given fields, and the disposition is `form-data`. |
| Multipart.GetFile | src/main/scala/server/mvc/Http.java:384-391 | The lookup throws a `NullPointerException` exactly when it reaches a null part, or a part with a null key, before any match. It returns null exactly when every part has a non-null key different from the argument. Otherwise it returns the first part, in list order, whose key equals the argument, and a null argument matches no part. |
| StackFrames.GetStackFrames | src/main/scala/server/libs/exception/ExceptionUtils.java:65-73 | The frames are the maximal runs of characters that are not separator characters, in order. Each frame is non-empty and contains no separator character. Laid end to end, they are the trace with its separator characters removed. |
| StackFrames.GetStackFramesOf | src/main/scala/server/libs/exception/ExceptionUtils.java:50-55 | A null throwable gives no frames. Otherwise the result is the frames of its printed trace. |
| Common.RunLength | src/main/scala/server/libs/exception/ExceptionUtils.java:67-71 | The run that starts the text holds no delimiter, and it ends at a delimiter or at the end of the text. |
| StackFrames.TokensConcat | src/main/scala/server/libs/exception/ExceptionUtils.java:67-71 | Nothing but separator characters is lost, and nothing is reordered. |
| StackFrames.OnlySeparators | src/main/scala/server/libs/exception/ExceptionUtils.java:67-71 | A trace of separator characters only, or an empty one, has no frames. |
| StackFrames.SingleLine | src/main/scala/server/libs/exception/ExceptionUtils.java:67-71 | A non-empty trace without separators is a single frame. |
| StackFrames.FramesRoundTrip | src/main/scala/server/libs/exception/ExceptionUtils.java:65-73 | Printing the frames one per line, each line ended by the whole platform line separator, and splitting again gives the same frames. The same holds when the separator sits only between frames. |
| StackFrames.SplitTerminatedLines | src/main/scala/server/libs/exception/ExceptionUtils.java:65-73 | Splitting any text whose lines are frames, each ended by a separator made of delimiter characters, gives the lines back. |
| SourceProvider.AsStrings | src/main/scala/server/inject/SourceProvider.java:43-49 | The names are those of the classes, one per class, in order. A null class makes the call throw a `NullPointerException`, and only a null class does. |
| SourceProvider.PlusSkippedClasses | src/main/scala/server/inject/SourceProvider.java:34-38 | The call throws a `NullPointerException` exactly when a null class is among those added. Otherwise the new provider skips a name exactly when the old one did or one of the added classes has that name. |
| SourceProvider.PlusSkippedClassesCompose | src/main/scala/server/inject/SourceProvider.java:34-38 | Adding two lists of classes in turn is the same as adding both at once, and throws exactly when one of the lists holds a null class. |
| SourceProvider.FirstUnskipped | src/main/scala/server/inject/SourceProvider.java:57-65 | The selected index is that of the first frame whose class is not skipped, with every frame above it skipped. |
| SourceProvider.GetCaller | src/main/scala/server/inject/SourceProvider.java:57-65 | The result is the frame nearest the top of the stack whose class is not skipped. An `AssertionError` is thrown exactly when every frame is skipped. |
| SourceProvider.SelectedFrameIsFirstUnskipped | src/main/scala/server/inject/SourceProvider.java:57-65 | The frame that `GetCaller` promises is unique. It is the one at the reference index `FirstUnskipped`. |
| SourceProvider.SkippingMoreNeverSelectsEarlier | src/main/scala/server/inject/SourceProvider.java:34-38 | A provider that skips more classes selects a frame at the same depth or deeper. |
| SourceProvider.DefaultSkipsOnlyItself | src/main/scala/server/inject/SourceProvider.java:21-22 | The default provider passes over the provider's own frames and selects the first frame of any other class. |
| Named.Value | src/main/scala/server/inject/NamedImpl.java:22-28 | `value()` returns the string the annotation was built with. |
| Named.Equals | src/main/scala/server/inject/NamedImpl.java:35-42 | The result is false for an object that is not a `Named`, and false for a `Named` whose `value()` is null. Otherwise it is true exactly when the two values are equal strings. |
| Named.EqualsIsEquivalence | src/main/scala/server/inject/NamedImpl.java:35-42 | `equals` is reflexive and symmetric on `NamedImpl`s, and holds exactly for equal annotations. |
| Named.HashIsPolynomial | src/main/scala/server/inject/NamedImpl.java:32 | The wrapping 32-bit `String.hashCode` loop equals the documented polynomial over the UTF-16 units, reduced modulo 2^32. |
| Named.ValueNameHashIsStringHash | src/main/scala/server/inject/NamedImpl.java:32 | `"value".hashCode()` is 111972721. |
| Named.HashCode | src/main/scala/server/inject/NamedImpl.java:30-33 | The hash is a 32-bit pattern. XOR-ing it with the wrapped `127 * "value".hashCode()` gives back the value's string hash. |
| Named.HashCodeFollowsAnnotationContract | src/main/scala/server/inject/NamedImpl.java:30-33 | The hash is `(127 * P("value") mod 2^32) xor (P(value) mod 2^32)`, where `P` is the string-hash polynomial. |
| Named.EqualsImpliesEqualHash | src/main/scala/server/inject/NamedImpl.java:30-42 | Equal annotations have equal hash codes. |
| Named.EmptyValueHash | src/main/scala/server/inject/NamedImpl.java:30-33 | The annotation with the empty value hashes to the wrapped `127 * "value".hashCode()` itself, because the empty string hashes to 0. |
| Named.XorCancels | src/main/scala/server/inject/NamedImpl.java:32 | XOR-ing a 32-bit pattern twice with the same pattern gives it back. This is why the hash keeps all of the value's string hash. |
| Named.ToString | src/main/scala/server/inject/NamedImpl.java:44-46 | The text is `@javax.inject.Named(value=`, then the value, then `)`. |
| Named.ToStringInjective | src/main/scala/server/inject/NamedImpl.java:44-46 | Different annotations print differently. |
| Mode.AsScala | src/main/scala/server/utils/Mode.java:9-16 | `DEV` maps to `Dev` and `PROD` to `Prod`. The remaining mode, `TEST`, maps to `Test`. |
| Mode.AsScalaIsBijective | src/main/scala/server/utils/Mode.java:9-16 | The conversion is injective, and mapping back by name inverts it in both directions. |

## Left out

- Threads, `Thread.sleep(500)`, renaming the worker thread and printing its id: these are timing and logging with no effect on what is written.
- The Netty channel and its futures: a task's output is the list of effects it would apply to the channel.
- `HttpUtil.isKeepAlive`: its decision, taken from the request's version and `Connection` header, is an input of the request message.
- `HttpHelloWorldServerInitializer`: the pipeline set-up and its read and write timeout handlers are configuration outside the dispatch code.
- Business.Submit: models the pool's admission, not the real concurrency of two threads. The interleaving of worker completions is an input event sequence.
- `URLEncoder.encode`, `Json.stringify`, `Json.fromJson`, `XML.toBytes`, `RawBuffer.asBytes` and `getClass()`: library code, taken as function parameters.
- The `UnsupportedEncodingException` branch of `encode`: the `utf8` charset always exists.
- HttpBody.AsBytes: an `Err` result stands for both exceptions the form stream can throw. Their order is modelled in `FormPairs`; the rest of the stream's laziness is not.
- The classes the code tests for (`Optional`, `ByteString`, `byte[]`, `String`, `String[]`, `RawBuffer`, `JsonNode`, `Document`, `Map`, `MultipartFormData`) are taken as pairwise disjoint: a body is a value of at most one of them.
- The map's iteration order: a body map is listed in its `entrySet` order, which the model takes as given.
- The abstract members of `MultipartFormData`, `FilePart`'s getters, `DataPart` and `FileInfo`: they are accessors with no logic. `getFiles` is the `files` field.
- `ExceptionUtils.getStackTrace`: `Throwable.printStackTrace` is runtime output. The printed trace and `System.lineSeparator()` are inputs.
- `EMPTY_STRING_ARRAY`: the empty sequence.
- `new Throwable().getStackTrace()`: the current stack is a parameter of `SourceProvider.GetCaller`.
- `UNKNOWN_SOURCE`: not modelled, a constant no code here uses.
- Named.HashCode: gives the unsigned reading of the 32 bits of Java's signed `int` result. The bits are the same.
- `NamedImpl.annotationType` and `serialVersionUID`: constants with no behaviour.
- `NamedImpl` with a null value: `hashCode`, `equals` and `toString` would throw or print `null`. The value is always a string here.
- Java strings holding unpaired surrogates: a Dafny `char` is a Unicode scalar value, so such strings are not representable.
- `CrossScala`, `HandlerDef`, `Build`, `UsefulException`, `ReloadableServer` and `HttpHeaderDateFormat`: classes outside the modelled core.

=== FILE: business.dfy ===
/** The asynchronous "business" step of the hello-world server
    (`BusinessThreadUtil`): a fixed pool of two workers fed by a bounded
    queue of 100000 tasks, each task turning one inbound message into at
    most one HTTP/1.1 200 response and deciding whether the connection is
    closed after it is written.

    Threads become a sequential pool state; the Netty channel becomes the
    list of effects a task has on it. Whether a request asks for keep-alive
    (`HttpUtil.isKeepAlive`) is an input carried by the request message. */
module Business {
  import opened Common

  /** Core and maximum size of the `ThreadPoolExecutor`. */
  const WorkerCount: nat := 2

  /** Capacity of the executor's `LinkedBlockingQueue`. */
  const QueueCapacity: nat := 100000

  const ProtocolVersion: string := "HTTP/1.1"
  const StatusOk: nat := 200
  const ReasonOk: string := "OK"

  /** What the channel handler hands to the pool: a decoded `HttpRequest`,
      or any other pipeline message (a body chunk, for one). */
  datatype Message = HttpRequest(keepAlive: bool) | OtherMessage

  datatype Header = Header(name: string, value: string)

  datatype Response = Response(
    version: string,
    status: nat,
    reason: string,
    headers: seq<Header>,
    content: Bytes)

  /** What a task does to its channel: `writeAndFlush` of a response, and the
      `ChannelFutureListener.CLOSE` that closes the channel once that write
      has completed. */
  datatype Effect = WriteAndFlush(response: Response) | CloseAfterWrite

  // ---------------------------------------------------------------------------
  // Headers: names compare ASCII case-insensitively, as in Netty
  // ---------------------------------------------------------------------------

  function LowerAscii(c: char): char {
    if 'A' <= c <= 'Z' then (c as int + 32) as char else c
  }

  /** Header names are compared ignoring ASCII case. */
  predicate SameName(a: string, b: string) {
    |a| == |b| && forall i :: 0 <= i < |a| ==> LowerAscii(a[i]) == LowerAscii(b[i])
  }

  /** The value of the first header called `name`, as `HttpHeaders.get` returns it. */
  function Get(hs: seq<Header>, name: string): Option<string> {
    if |hs| == 0 then None
    else if SameName(hs[0].name, name) then Some(hs[0].value)
    else Get(hs[1..], name)
  }

  /** A lookup fails exactly when no header has the name, and otherwise
      finds the value of the first header that has it. */
  lemma {:induction false} GetIsFirstMatch(hs: seq<Header>, name: string)
    ensures Get(hs, name).None? <==> forall i :: 0 <= i < |hs| ==> !SameName(hs[i].name, name)
    ensures Get(hs, name).Some? ==>
      exists i :: 0 <= i < |hs| && SameName(hs[i].name, name) && hs[i].value == Get(hs, name).value
        && forall j :: 0 <= j < i ==> !SameName(hs[j].name, name)
  {
    if |hs| > 0 {
      GetIsFirstMatch(hs[1..], name);
      if !SameName(hs[0].name, name) && Get(hs, name).Some? {
        var tail := hs[1..];
        var i :| 0 <= i < |tail| && SameName(tail[i].name, name) && tail[i].value == Get(hs, name).value
                 && forall j :: 0 <= j < i ==> !SameName(tail[j].name, name);
        assert hs[i + 1] == tail[i];
        forall j | 0 <= j < i + 1 ensures !SameName(hs[j].name, name) {
          if j > 0 {
            assert hs[j] == tail[j - 1];
          }
        }
      }
      if forall i :: 0 <= i < |hs| ==> !SameName(hs[i].name, name) {
        assert forall i :: 0 <= i < |hs[1..]| ==> hs[1..][i] == hs[i + 1];
      }
    }
  }

  /** `hs` without its headers called `name`. */
  function RemoveAll(hs: seq<Header>, name: string): (r: seq<Header>)
    ensures forall i :: 0 <= i < |r| ==> !SameName(r[i].name, name)
    ensures forall i :: 0 <= i < |r| ==> r[i] in hs
  {
    if |hs| == 0 then []
    else if SameName(hs[0].name, name) then RemoveAll(hs[1..], name)
    else [hs[0]] + RemoveAll(hs[1..], name)
  }

  /** No two headers share a name, ignoring ASCII case. */
  predicate DistinctNames(hs: seq<Header>) {
    forall i, j :: 0 <= i < j < |hs| ==> !SameName(hs[i].name, hs[j].name)
  }

  /** Removing headers keeps the remaining names distinct. */
  lemma {:induction false} RemoveAllDistinct(hs: seq<Header>, name: string)
    requires DistinctNames(hs)
    ensures DistinctNames(RemoveAll(hs, name))
  {
    if |hs| > 0 {
      var tail := hs[1..];
      assert DistinctNames(tail) by {
        forall i, j | 0 <= i < j < |tail| ensures !SameName(tail[i].name, tail[j].name) {
          assert tail[i] == hs[i + 1] && tail[j] == hs[j + 1];
        }
      }
      RemoveAllDistinct(tail, name);
      if !SameName(hs[0].name, name) {
        var rest := RemoveAll(tail, name);
        var r := [hs[0]] + rest;
        forall i, j | 0 <= i < j < |r| ensures !SameName(r[i].name, r[j].name) {
          if i == 0 {
            assert r[j] == rest[j - 1] && rest[j - 1] in tail;
            var k :| 0 <= k < |tail| && tail[k] == rest[j - 1];
            assert tail[k] == hs[k + 1];
          } else {
            assert r[i] == rest[i - 1] && r[j] == rest[j - 1];
          }
        }
      }
    }
  }

  /** `set` keeps header names distinct. */
  lemma SetHeaderDistinct(hs: seq<Header>, name: string, value: string)
    requires DistinctNames(hs)
    ensures DistinctNames(SetHeader(hs, name, value))
  {
    RemoveAllDistinct(hs, name);
    var rest := RemoveAll(hs, name);
    var r := SetHeader(hs, name, value);
    forall i, j | 0 <= i < j < |r| ensures !SameName(r[i].name, r[j].name) {
      assert r[i] == rest[i];
      if j < |rest| {
        assert r[j] == rest[j];
      }
    }
  }

  lemma {:induction false} GetRemoveAll(hs: seq<Header>, name: string, n: string)
    ensures Get(RemoveAll(hs, name), n) == if SameName(n, name) then None else Get(hs, n)
  {
    if |hs| > 0 {
      GetRemoveAll(hs[1..], name, n);
      if !SameName(hs[0].name, name) {
        assert ([hs[0]] + RemoveAll(hs[1..], name))[1..] == RemoveAll(hs[1..], name);
      }
    }
  }

  lemma {:induction false} GetAppend(hs: seq<Header>, h: Header, n: string)
    ensures Get(hs + [h], n) ==
      if Get(hs, n).Some? then Get(hs, n)
      else if SameName(h.name, n) then Some(h.value)
      else None
  {
    if |hs| > 0 {
      assert (hs + [h])[1..] == hs[1..] + [h];
      GetAppend(hs[1..], h, n);
    }
  }

  /** `HttpHeaders.set`: every earlier header of that name is replaced by one
      new header; headers of other names are untouched. */
  function SetHeader(hs: seq<Header>, name: string, value: string): (r: seq<Header>)
    ensures forall i :: 0 <= i < |r| ==> r[i] in hs || r[i] == Header(name, value)
  {
    RemoveAll(hs, name) + [Header(name, value)]
  }

  /** After `set`, a lookup of that name (in any case) finds the new value,
      and lookups of every other name find what they found before. */
  lemma GetAfterSet(hs: seq<Header>, name: string, value: string, n: string)
    ensures Get(SetHeader(hs, name, value), n) == if SameName(n, name) then Some(value) else Get(hs, n)
  {
    GetRemoveAll(hs, name, n);
    GetAppend(RemoveAll(hs, name), Header(name, value), n);
  }

  // ---------------------------------------------------------------------------
  // Decimal rendering of `setInt`
  // ---------------------------------------------------------------------------

  function DigitChar(d: nat): char
    requires d < 10
  {
    "0123456789"[d]
  }

  predicate IsDigit(c: char) {
    '0' <= c <= '9'
  }

  function DigitValue(c: char): nat
    requires IsDigit(c)
  {
    c as int - '0' as int
  }

  /** `Integer.toString` of a non-negative int. */
  function Decimal(n: nat): (r: string)
    ensures |r| > 0
    ensures forall i :: 0 <= i < |r| ==> IsDigit(r[i])
    ensures |r| > 1 ==> r[0] != '0'
    decreases n
  {
    if n < 10 then [DigitChar(n)] else Decimal(n / 10) + [DigitChar(n % 10)]
  }

  /** Reads a decimal numeral back, as a client reads `Content-Length`. */
  function ParseDecimal(s: string): Option<nat>
    decreases |s|
  {
    if |s| == 0 || !IsDigit(s[|s| - 1]) then None
    else if |s| == 1 then Some(DigitValue(s[0]))
    else match ParseDecimal(s[..|s| - 1])
      case None => None
      case Some(v) => Some(10 * v + DigitValue(s[|s| - 1]))
  }

  lemma {:induction false} DecimalRoundTrip(n: nat)
    ensures ParseDecimal(Decimal(n)) == Some(n)
    decreases n
  {
    if n >= 10 {
      var s := Decimal(n);
      assert s[..|s| - 1] == Decimal(n / 10);
      DecimalRoundTrip(n / 10);
    }
  }

  // ---------------------------------------------------------------------------
  // One task: doBusiness
  // ---------------------------------------------------------------------------

  /** The response every request gets: HTTP/1.1 200 OK whose body is exactly
      the given content, typed `text/plain`, with a `Content-Length` a client
      reads back as the body's length, and a `Connection` header present
      exactly when the request asked for keep-alive; no other header is set,
      no name appears twice, and the length has no leading zero. */
  predicate WellFormedOk(r: Response, content: Bytes, keepAlive: bool) {
    && r.version == ProtocolVersion
    && r.status == StatusOk
    && r.reason == ReasonOk
    && r.content == content
    && Get(r.headers, "Content-Type") == Some("text/plain")
    && Get(r.headers, "Content-Length").Some?
    && ParseDecimal(Get(r.headers, "Content-Length").value) == Some(|content|)
    && NoLeadingZero(Get(r.headers, "Content-Length").value)
    && Get(r.headers, "Connection") == (if keepAlive then Some("keep-alive") else None)
    && (forall i :: 0 <= i < |r.headers| ==> AllowedName(r.headers[i].name, keepAlive))
    && DistinctNames(r.headers)
  }

  /** A numeral as `Integer.toString` writes it: no zero in front of
      another digit. */
  predicate NoLeadingZero(s: string) {
    |s| > 1 ==> s[0] != '0'
  }

  /** The names a 200 response may carry, spelled as they are set. */
  predicate AllowedName(name: string, keepAlive: bool) {
    name == "Content-Type" || name == "Content-Length" || (keepAlive && name == "Connection")
  }

  function CountWrites(es: seq<Effect>): nat {
    if |es| == 0 then 0
    else (if es[0].WriteAndFlush? then 1 else 0) + CountWrites(es[1..])
  }

  function BuildResponse(content: Bytes, keepAlive: bool): (r: Response)
    ensures WellFormedOk(r, content, keepAlive)
  {
    var length := Decimal(|content|);
    var hs1 := SetHeader([], "Content-Type", "text/plain");
    var hs2 := SetHeader(hs1, "Content-Length", length);
    var hs3 := if keepAlive then SetHeader(hs2, "Connection", "keep-alive") else hs2;
    DecimalRoundTrip(|content|);
    SetHeaderDistinct([], "Content-Type", "text/plain");
    SetHeaderDistinct(hs1, "Content-Length", length);
    SetHeaderDistinct(hs2, "Connection", "keep-alive");
    GetAfterSet([], "Content-Type", "text/plain", "Content-Type");
    GetAfterSet([], "Content-Type", "text/plain", "Content-Length");
    GetAfterSet([], "Content-Type", "text/plain", "Connection");
    GetAfterSet(hs1, "Content-Length", length, "Content-Type");
    GetAfterSet(hs1, "Content-Length", length, "Content-Length");
    GetAfterSet(hs1, "Content-Length", length, "Connection");
    GetAfterSet(hs2, "Connection", "keep-alive", "Content-Type");
    GetAfterSet(hs2, "Connection", "keep-alive", "Content-Length");
    GetAfterSet(hs2, "Connection", "keep-alive", "Connection");
    Response(ProtocolVersion, StatusOk, ReasonOk, hs3, content)
  }

  /** The body of the task that `doBusiness` submits. A message that is not a
      request has no effect on the channel. For a request, a `null` content
      (`None`) makes `Unpooled.wrappedBuffer` throw inside the task, which
      the executor's future keeps, so the channel sees nothing; otherwise
      the request gets exactly one write of a well-formed 200 response,
      followed by a close exactly when it did not ask for keep-alive. */
  function DoBusiness(msg: Message, content: Option<Bytes>): (es: seq<Effect>)
    ensures !msg.HttpRequest? || content.None? ==> es == []
    ensures msg.HttpRequest? && content.Some? ==>
      && 1 <= |es| <= 2
      && es[0].WriteAndFlush?
      && WellFormedOk(es[0].response, content.value, msg.keepAlive)
      && (|es| == 2 <==> !msg.keepAlive)
      && (|es| == 2 ==> es[1].CloseAfterWrite?)
  {
    match msg
    case OtherMessage => []
    case HttpRequest(keepAlive) =>
      match content
      case None => []
      case Some(bytes) =>
        var response := BuildResponse(bytes, keepAlive);
        if !keepAlive then [WriteAndFlush(response), CloseAfterWrite] else [WriteAndFlush(response)]
  }

  /** A task that can answer: a request with non-null content. */
  predicate Answers(msg: Message, content: Option<Bytes>) {
    msg.HttpRequest? && content.Some?
  }

  /** Each message causes at most one write: exactly one for a request with
      content. */
  lemma DoBusinessWritesOnce(msg: Message, content: Option<Bytes>)
    ensures CountWrites(DoBusiness(msg, content)) == if Answers(msg, content) then 1 else 0
  {
    var es := DoBusiness(msg, content);
    if Answers(msg, content) {
      var tail := es[1..];
      if |es| == 2 {
        assert tail[1..] == [];
        assert CountWrites(tail) == 0;
      } else {
        assert tail == [];
      }
      assert CountWrites(es) == 1 + CountWrites(tail);
    }
  }

  // ---------------------------------------------------------------------------
  // The executor: two workers and a bounded FIFO queue
  // ---------------------------------------------------------------------------

  /** A submitted `doBusiness` task. */
  datatype Task = Task(msg: Message, content: Option<Bytes>)

  /** What a task does when a worker runs it. */
  function RunTask(t: Task): seq<Effect> {
    DoBusiness(t.msg, t.content)
  }

  /** `running` holds the tasks the workers are executing, `queue` the tasks
      waiting, oldest first. */
  datatype Pool<T> = Pool(running: seq<T>, queue: seq<T>)

  /** What `executor.submit` did with a task. `Rejected` is the
      `RejectedExecutionException` of the default abort policy. */
  datatype Admission = Started | Queued | Rejected

  /** At most two tasks run, at most 100000 wait, and nobody waits while a
      worker is idle. */
  predicate Valid<T>(p: Pool<T>) {
    && |p.running| <= WorkerCount
    && |p.queue| <= QueueCapacity
    && (|p.queue| > 0 ==> |p.running| == WorkerCount)
  }

  /** Every task the pool holds, running or waiting. */
  function Pending<T>(p: Pool<T>): seq<T> {
    p.running + p.queue
  }

  /** `ThreadPoolExecutor.execute`: an idle worker takes the task at once;
      otherwise the task joins the back of the queue if there is room, and
      is rejected if there is not. */
  function Submit<T>(p: Pool<T>, t: T): (r: (Pool<T>, Admission))
    requires Valid(p)
    ensures Valid(r.0)
    ensures r.1 == Started <==> |p.running| < WorkerCount
    ensures r.1 == Rejected <==> |p.queue| == QueueCapacity
    ensures r.1 == Started ==> r.0.queue == p.queue == [] && r.0.running == p.running + [t]
    ensures r.1 == Queued ==> r.0.running == p.running && r.0.queue == p.queue + [t]
    ensures r.1 == Rejected ==> r.0 == p
  {
    if |p.running| < WorkerCount then (Pool(p.running + [t], p.queue), Started)
    else if |p.queue| < QueueCapacity then (Pool(p.running, p.queue + [t]), Queued)
    else (p, Rejected)
  }

  /** Worker slot `w` finishes its task, which leaves the pool; the oldest
      waiting task, if any, starts in its place. */
  function Complete<T>(p: Pool<T>, w: nat): (r: (Pool<T>, T))
    requires Valid(p)
    requires w < |p.running|
    ensures Valid(r.0)
    ensures r.1 == p.running[w]
    ensures |p.queue| > 0 ==> r.0.queue == p.queue[1..] && p.queue[0] in r.0.running
    ensures |p.queue| == 0 ==> r.0.queue == [] && |r.0.running| == |p.running| - 1
  {
    var done := p.running[w];
    var others := p.running[..w] + p.running[w + 1..];
    assert p.running == p.running[..w] + [done] + p.running[w + 1..];
    var next :=
      if |p.queue| > 0 then Pool(others + [p.queue[0]], p.queue[1..])
      else Pool(others, []);
    assert |p.queue| > 0 ==> p.queue == [p.queue[0]] + p.queue[1..];
    (next, done)
  }

  /** One thing that can happen to the pool: a submission, or worker slot
      `w` finishing (nothing happens when no task is in that slot). */
  datatype Event<T> = SubmitEvent(task: T) | WorkerDone(w: nat)

  /** The outcome of one or more events: the new pool, the tasks that joined
      the queue, the tasks that left it to start running, and the tasks that
      finished, each list in order. */
  datatype Trace<T> = Trace(pool: Pool<T>, enqueued: seq<T>, dequeued: seq<T>, finished: seq<T>)

  function Step<T>(p: Pool<T>, e: Event<T>): (r: Trace<T>)
    requires Valid(p)
    ensures Valid(r.pool)
    ensures r.dequeued + r.pool.queue == p.queue + r.enqueued
  {
    match e
    case SubmitEvent(task) =>
      var s := Submit(p, task);
      Trace(s.0, if s.1 == Queued then [task] else [], [], [])
    case WorkerDone(w) =>
      if w < |p.running| then
        var c := Complete(p, w);
        var left := if |p.queue| > 0 then [p.queue[0]] else [];
        assert left + c.0.queue == p.queue by {
          if |p.queue| > 0 {
            assert p.queue == [p.queue[0]] + p.queue[1..];
          }
        }
        Trace(c.0, [], left, [c.1])
      else Trace(p, [], [], [])
  }

  /** Runs a sequence of events, concatenating what each step logs. */
  function Run<T>(p: Pool<T>, events: seq<Event<T>>): (t: Trace<T>)
    requires Valid(p)
    ensures Valid(t.pool)
    decreases |events|
  {
    if |events| == 0 then Trace(p, [], [], [])
    else
      var s := Step(p, events[0]);
      var rest := Run(s.pool, events[1..]);
      Trace(rest.pool, s.enqueued + rest.enqueued, s.dequeued + rest.dequeued, s.finished + rest.finished)
  }

  /** The queue is first-in first-out: over any run, the tasks that left the
      queue followed by those still in it are exactly the tasks that were in
      it at the start followed by those that joined it, in the same order. */
  lemma {:induction false} RunIsFifo<T>(p: Pool<T>, events: seq<Event<T>>)
    requires Valid(p)
    ensures Run(p, events).dequeued + Run(p, events).pool.queue == p.queue + Run(p, events).enqueued
    decreases |events|
  {
    if |events| > 0 {
      var s := Step(p, events[0]);
      var rest := Run(s.pool, events[1..]);
      RunIsFifo(s.pool, events[1..]);
      FifoCompose(s.dequeued, s.pool.queue, p.queue, s.enqueued, rest.dequeued, rest.pool.queue, rest.enqueued);
    }
  }

  /** Two FIFO steps compose into one. */
  lemma FifoCompose<T>(d1: seq<T>, q1: seq<T>, q0: seq<T>, e1: seq<T>, d2: seq<T>, q2: seq<T>, e2: seq<T>)
    requires d1 + q1 == q0 + e1
    requires d2 + q2 == q1 + e2
    ensures (d1 + d2) + q2 == q0 + (e1 + e2)
  {
    calc {
      (d1 + d2) + q2;
      d1 + (d2 + q2);
      d1 + (q1 + e2);
      (d1 + q1) + e2;
      (q0 + e1) + e2;
      q0 + (e1 + e2);
    }
  }

  /** A submission adds the task to what the pool holds, unless it is rejected. */
  lemma SubmitConserves<T>(p: Pool<T>, t: T)
    requires Valid(p)
    ensures multiset(Pending(Submit(p, t).0))
         == multiset(Pending(p)) + (if Submit(p, t).1 == Rejected then multiset{} else multiset{t})
  {
  }

  /** A completion removes exactly the finished task from what the pool holds. */
  lemma CompleteConserves<T>(p: Pool<T>, w: nat)
    requires Valid(p)
    requires w < |p.running|
    ensures multiset(Pending(Complete(p, w).0)) + multiset{p.running[w]} == multiset(Pending(p))
  {
    var done := p.running[w];
    assert p.running == p.running[..w] + [done] + p.running[w + 1..];
    if |p.queue| > 0 {
      assert p.queue == [p.queue[0]] + p.queue[1..];
    }
  }

  /** The tasks one event admits: the submitted task unless it is rejected. */
  function AdmittedBy<T>(p: Pool<T>, e: Event<T>): seq<T>
    requires Valid(p)
  {
    match e
    case SubmitEvent(task) => if Submit(p, task).1 != Rejected then [task] else []
    case WorkerDone(_) => []
  }

  /** The tasks a run admits, in order. */
  function Admitted<T>(p: Pool<T>, events: seq<Event<T>>): seq<T>
    requires Valid(p)
    decreases |events|
  {
    if |events| == 0 then []
    else AdmittedBy(p, events[0]) + Admitted(Step(p, events[0]).pool, events[1..])
  }

  lemma StepConserves<T>(p: Pool<T>, e: Event<T>)
    requires Valid(p)
    ensures multiset(Pending(Step(p, e).pool)) + multiset(Step(p, e).finished)
         == multiset(Pending(p)) + multiset(AdmittedBy(p, e))
  {
    match e
    case SubmitEvent(task) =>
      SubmitConserves(p, task);
    case WorkerDone(w) =>
      if w < |p.running| {
        CompleteConserves(p, w);
      }
  }

  /** Nothing is lost or duplicated: over any run, the tasks still held plus
      the tasks that finished are the tasks held at the start plus the tasks
      admitted. */
  lemma {:induction false} RunConservesTasks<T>(p: Pool<T>, events: seq<Event<T>>)
    requires Valid(p)
    ensures multiset(Pending(Run(p, events).pool)) + multiset(Run(p, events).finished)
         == multiset(Pending(p)) + multiset(Admitted(p, events))
    decreases |events|
  {
    if |events| > 0 {
      var s := Step(p, events[0]);
      var rest := Run(s.pool, events[1..]);
      var t := Run(p, events);
      StepConserves(p, events[0]);
      RunConservesTasks(s.pool, events[1..]);
      ConservesCompose(multiset(Pending(p)), multiset(Pending(s.pool)), multiset(Pending(rest.pool)),
        multiset(s.finished), multiset(rest.finished),
        multiset(AdmittedBy(p, events[0])), multiset(Admitted(s.pool, events[1..])));
    }
  }

  lemma ConservesCompose<T>(h0: multiset<T>, h1: multiset<T>, h2: multiset<T>,
                            f1: multiset<T>, f2: multiset<T>, a1: multiset<T>, a2: multiset<T>)
    requires h1 + f1 == h0 + a1
    requires h2 + f2 == h1 + a2
    ensures h2 + (f1 + f2) == h0 + (a1 + a2)
  {
    forall x ensures (h2 + (f1 + f2))[x] == (h0 + (a1 + a2))[x] {
      assert (h2 + f2)[x] == (h1 + a2)[x];
      assert (h1 + f1)[x] == (h0 + a1)[x];
    }
  }

  /** Submission succeeds exactly while the queue has room, whatever the pool
      holds. */
  lemma SubmitRejectsOnlyWhenFull<T>(p: Pool<T>, t: T)
    requires Valid(p)
    ensures |p.queue| < QueueCapacity ==> Submit(p, t).1 != Rejected
    ensures |p.queue| == QueueCapacity ==> Submit(p, t).1 == Rejected && Submit(p, t).0 == p
  {
  }

  // ---------------------------------------------------------------------------
  // Writes over a run
  // ---------------------------------------------------------------------------

  /** The effects of running the given tasks one after another. */
  function RunAll(ts: seq<Task>): seq<Effect> {
    if |ts| == 0 then [] else RunTask(ts[0]) + RunAll(ts[1..])
  }

  /** The number of tasks that carry a request with content. */
  function CountAnswering(ts: seq<Task>): nat {
    if |ts| == 0 then 0 else (if Answers(ts[0].msg, ts[0].content) then 1 else 0) + CountAnswering(ts[1..])
  }

  lemma {:induction false} CountWritesAppend(a: seq<Effect>, b: seq<Effect>)
    ensures CountWrites(a + b) == CountWrites(a) + CountWrites(b)
  {
    if |a| == 0 {
      assert a + b == b;
    } else {
      assert (a + b)[0] == a[0];
      assert (a + b)[1..] == a[1..] + b;
      CountWritesAppend(a[1..], b);
    }
  }

  /** The channels see exactly one write per finished task that carried a
      request with content, and none for any other task. */
  lemma {:induction false} OneWritePerRequest(ts: seq<Task>)
    ensures CountWrites(RunAll(ts)) == CountAnswering(ts)
  {
    if |ts| > 0 {
      OneWritePerRequest(ts[1..]);
      DoBusinessWritesOnce(ts[0].msg, ts[0].content);
      CountWritesAppend(RunTask(ts[0]), RunAll(ts[1..]));
    }
  }
}

=== FILE: common.dfy ===
/** Vocabulary shared by the rest of the model: optional values (a Java
    reference that may be null), outcomes that carry a thrown exception,
    bytes, and the two string encodings the Java and Akka libraries use
    underneath the modelled code (UTF-8 for `ByteString.fromString`, UTF-16
    code units for `String.hashCode`).

    A Dafny `char` is a Unicode scalar value, so a `string` here is a Java
    string that holds no unpaired surrogate. */
module Common {

  /** `None` stands for a Java `null` reference. */
  datatype Option<+T> = None | Some(value: T)

  /** `Err` stands for a Java exception thrown out of the modelled call. */
  datatype Result<+T, +E> = Ok(value: T) | Err(error: E)

  /** The Java exceptions the modelled code can throw. */
  datatype Exception = NullPointerException | ClassCastException | AssertionError

  newtype byte = x: int | 0 <= x < 0x100

  type Bytes = seq<byte>

  // ---------------------------------------------------------------------------
  // Text
  // ---------------------------------------------------------------------------

  /** The length of the longest prefix of `s` that holds no character of `d`:
      the position of the first such character, or `|s|` when there is none. */
  function RunLength(s: string, d: set<char>): (k: nat)
    ensures k <= |s|
    ensures forall i :: 0 <= i < k ==> s[i] !in d
    ensures k < |s| ==> s[k] in d
  {
    if |s| == 0 || s[0] in d then 0 else 1 + RunLength(s[1..], d)
  }

  /** `parts` with `sep` between neighbours, as `Collectors.joining` and
      `String.join` build it. */
  function Join(parts: seq<string>, sep: string): (r: string)
    ensures |parts| == 0 ==> r == ""
    ensures |parts| > 0 ==> |r| >= |parts[0]| && r[..|parts[0]|] == parts[0]
    decreases |parts|
  {
    if |parts| == 0 then ""
    else if |parts| == 1 then parts[0]
    else parts[0] + sep + Join(parts[1..], sep)
  }

  // ---------------------------------------------------------------------------
  // UTF-8
  // ---------------------------------------------------------------------------

  /** True of a byte of the form 10xxxxxx. */
  predicate IsContinuation(b: byte) {
    0x80 <= b < 0xC0
  }

  /** The number of bytes UTF-8 uses for a scalar value, read off its lead byte. */
  function SequenceLength(lead: byte): nat {
    if lead < 0x80 then 1
    else if 0xC0 <= lead < 0xE0 then 2
    else if 0xE0 <= lead < 0xF0 then 3
    else if 0xF0 <= lead < 0xF8 then 4
    else 0
  }

  /** The UTF-8 encoding of one scalar value. The lead byte announces the
      length and every following byte is a continuation byte, which is what
      lets a decoder find the boundaries again. */
  function Utf8Char(c: char): (r: Bytes)
    ensures 1 <= |r| <= 4
    ensures SequenceLength(r[0]) == |r|
    ensures forall i :: 1 <= i < |r| ==> IsContinuation(r[i])
    ensures |r| == (if c as int < 0x80 then 1 else if c as int < 0x800 then 2
                    else if c as int < 0x1_0000 then 3 else 4)
    ensures |r| == 1 ==> r[0] as int == c as int
  {
    var n := c as int;
    if n < 0x80 then [n as byte]
    else if n < 0x800 then
      [(0xC0 + n / 0x40) as byte, (0x80 + n % 0x40) as byte]
    else if n < 0x1_0000 then
      [(0xE0 + n / 0x1000) as byte, (0x80 + n / 0x40 % 0x40) as byte, (0x80 + n % 0x40) as byte]
    else
      [(0xF0 + n / 0x4_0000) as byte, (0x80 + n / 0x1000 % 0x40) as byte,
       (0x80 + n / 0x40 % 0x40) as byte, (0x80 + n % 0x40) as byte]
  }

  /** The UTF-8 encoding of a string, as `ByteString.fromString` produces it. */
  function Utf8(s: string): (r: Bytes)
    ensures |s| <= |r| <= 4 * |s|
  {
    if |s| == 0 then [] else Utf8Char(s[0]) + Utf8(s[1..])
  }

  /** Decodes the scalar value whose encoding starts a byte sequence.
      Overlong forms (a value encoded in more bytes than it needs), encoded
      surrogates and values above U+10FFFF are rejected, as the UTF-8
      definition requires. */
  function DecodeChar(bs: Bytes): (r: Option<(char, nat)>)
    ensures r.Some? ==> 1 <= r.value.1 <= |bs|
  {
    if |bs| == 0 then None
    else
      var len := SequenceLength(bs[0]);
      if len == 0 || |bs| < len then None
      else if exists i :: 1 <= i < len && !IsContinuation(bs[i]) then None
      else
        var n :=
          if len == 1 then bs[0] as int
          else if len == 2 then (bs[0] as int - 0xC0) * 0x40 + (bs[1] as int - 0x80)
          else if len == 3 then
            (bs[0] as int - 0xE0) * 0x1000 + (bs[1] as int - 0x80) * 0x40 + (bs[2] as int - 0x80)
          else
            (bs[0] as int - 0xF0) * 0x4_0000 + (bs[1] as int - 0x80) * 0x1000
            + (bs[2] as int - 0x80) * 0x40 + (bs[3] as int - 0x80);
        if (len == 2 && n < 0x80) || (len == 3 && n < 0x800) || (len == 4 && n < 0x1_0000) then None
        else if 0xD800 <= n < 0xE000 || 0x11_0000 <= n then None
        else Some((n as char, len))
  }

  /** Decodes a whole byte sequence; `None` when it is not well-formed. */
  function DecodeUtf8(bs: Bytes): Option<string>
    decreases |bs|
  {
    if |bs| == 0 then Some([])
    else match DecodeChar(bs)
      case None => None
      case Some((c, len)) =>
        match DecodeUtf8(bs[len..])
        case None => None
        case Some(rest) => Some([c] + rest)
  }

  lemma DivModSplit(n: int)
    requires 0 <= n
    ensures n == (n / 0x40) * 0x40 + n % 0x40
    ensures 0 <= n % 0x40 < 0x40
  {
  }

  /** Decoding reads back the scalar value of one encoded character. */
  lemma DecodeCharOfEncoding(c: char, rest: Bytes)
    ensures DecodeChar(Utf8Char(c) + rest) == Some((c, |Utf8Char(c)|))
  {
    var e := Utf8Char(c);
    var bs := e + rest;
    var n := c as int;
    assert bs[..|e|] == e;
    if n < 0x80 {
    } else if n < 0x800 {
      DivModSplit(n);
    } else if n < 0x1_0000 {
      DivModSplit(n);
      DivModSplit(n / 0x40);
      assert n / 0x40 / 0x40 == n / 0x1000;
    } else {
      DivModSplit(n);
      DivModSplit(n / 0x40);
      DivModSplit(n / 0x40 / 0x40);
      assert n / 0x40 / 0x40 == n / 0x1000;
      assert n / 0x1000 / 0x40 == n / 0x4_0000;
    }
  }

  /** UTF-8 is a lossless encoding: decoding the bytes of a string gives the string back. */
  lemma {:induction false} Utf8RoundTrip(s: string)
    ensures DecodeUtf8(Utf8(s)) == Some(s)
  {
    if |s| > 0 {
      var e := Utf8Char(s[0]);
      var tail := Utf8(s[1..]);
      DecodeCharOfEncoding(s[0], tail);
      assert (e + tail)[|e|..] == tail;
      Utf8RoundTrip(s[1..]);
      assert [s[0]] + s[1..] == s;
    }
  }

  /** Splitting `q * 64 + r` into its six low bits and the rest. */
  lemma DivModOf(q: int, r: int)
    requires 0 <= r < 0x40
    ensures (q * 0x40 + r) / 0x40 == q && (q * 0x40 + r) % 0x40 == r
  {
  }

  /** The two bytes of a character below U+0800, by its 6-bit digits. */
  lemma Utf8CharOfDigits2(c: char, b0: int, b1: int)
    requires 0 <= b1 < 0x40 && c as int == b0 * 0x40 + b1
    requires 0x80 <= c as int < 0x800
    ensures |Utf8Char(c)| == 2
    ensures Utf8Char(c)[0] as int == 0xC0 + b0 && Utf8Char(c)[1] as int == 0x80 + b1
  {
    DivModOf(b0, b1);
  }

  /** The three bytes of a character below U+10000, by its 6-bit digits. */
  lemma Utf8CharOfDigits3(c: char, b0: int, b1: int, b2: int)
    requires 0 <= b1 < 0x40 && 0 <= b2 < 0x40
    requires c as int == (b0 * 0x40 + b1) * 0x40 + b2
    requires 0x800 <= c as int < 0x1_0000
    ensures |Utf8Char(c)| == 3
    ensures Utf8Char(c)[0] as int == 0xE0 + b0
    ensures Utf8Char(c)[1] as int == 0x80 + b1 && Utf8Char(c)[2] as int == 0x80 + b2
  {
    var n := c as int;
    DivModOf(b0 * 0x40 + b1, b2);
    DivModOf(b0, b1);
    assert n / 0x1000 == n / 0x40 / 0x40;
  }

  /** The four bytes of a character from U+10000 on, by its 6-bit digits. */
  lemma Utf8CharOfDigits4(c: char, b0: int, b1: int, b2: int, b3: int)
    requires 0 <= b1 < 0x40 && 0 <= b2 < 0x40 && 0 <= b3 < 0x40
    requires c as int == ((b0 * 0x40 + b1) * 0x40 + b2) * 0x40 + b3
    requires 0x1_0000 <= c as int
    ensures |Utf8Char(c)| == 4
    ensures Utf8Char(c)[0] as int == 0xF0 + b0 && Utf8Char(c)[1] as int == 0x80 + b1
    ensures Utf8Char(c)[2] as int == 0x80 + b2 && Utf8Char(c)[3] as int == 0x80 + b3
  {
    var n := c as int;
    DivModOf((b0 * 0x40 + b1) * 0x40 + b2, b3);
    DivModOf(b0 * 0x40 + b1, b2);
    DivModOf(b0, b1);
    assert n / 0x1000 == n / 0x40 / 0x40;
    assert n / 0x4_0000 == n / 0x40 / 0x40 / 0x40;
  }

  /** A well-formed encoding of one character is the encoding `Utf8Char`
      produces: there is exactly one way to write each character. */
  lemma EncodingOfDecode(bs: Bytes)
    requires DecodeChar(bs).Some?
    ensures bs[..DecodeChar(bs).value.1] == Utf8Char(DecodeChar(bs).value.0)
  {
    var (c, len) := DecodeChar(bs).value;
    var e := Utf8Char(c);
    assert forall i :: 1 <= i < len ==> IsContinuation(bs[i]);
    if len == 2 {
      Utf8CharOfDigits2(c, bs[0] as int - 0xC0, bs[1] as int - 0x80);
    } else if len == 3 {
      Utf8CharOfDigits3(c, bs[0] as int - 0xE0, bs[1] as int - 0x80, bs[2] as int - 0x80);
    } else if len == 4 {
      Utf8CharOfDigits4(c, bs[0] as int - 0xF0, bs[1] as int - 0x80, bs[2] as int - 0x80,
                        bs[3] as int - 0x80);
    }
    assert bs[..len] == e;
  }

  /** Decoding is exact: bytes that decode to a string are the UTF-8
      encoding of that string and nothing else. With `Utf8RoundTrip` this
      makes `Utf8` and `DecodeUtf8` inverse bijections. */
  lemma {:induction false} Utf8OfDecode(bs: Bytes)
    requires DecodeUtf8(bs).Some?
    ensures Utf8(DecodeUtf8(bs).value) == bs
    decreases |bs|
  {
    if |bs| > 0 {
      var len := DecodeFirst(bs);
      var c := DecodeChar(bs).value.0;
      var tail := bs[len..];
      var rest := DecodeUtf8(tail).value;
      EncodingOfDecode(bs);
      Utf8OfDecode(tail);
      var s := [c] + rest;
      assert s[0] == c && s[1..] == rest;
      assert Utf8(s) == Utf8Char(c) + Utf8(rest);
      assert bs == bs[..len] + tail;
    }
  }

  /** A well-formed non-empty sequence starts with one well-formed character,
      followed by a well-formed remainder; `len` is that character's length. */
  lemma DecodeFirst(bs: Bytes) returns (len: nat)
    requires |bs| > 0 && DecodeUtf8(bs).Some?
    ensures DecodeChar(bs).Some? && len == DecodeChar(bs).value.1 <= |bs|
    ensures DecodeUtf8(bs[len..]).Some?
    ensures DecodeUtf8(bs).value == [DecodeChar(bs).value.0] + DecodeUtf8(bs[len..]).value
  {
    len := DecodeChar(bs).value.1;
  }

  // ---------------------------------------------------------------------------
  // UTF-16
  // ---------------------------------------------------------------------------

  /** The UTF-16 code units of one scalar value: one unit in the Basic
      Multilingual Plane, a surrogate pair above it. */
  function Utf16Char(c: char): (r: seq<int>)
    ensures |r| == 1 || |r| == 2
    ensures forall i :: 0 <= i < |r| ==> 0 <= r[i] < 0x1_0000
    ensures |r| == 1 <==> c as int < 0x1_0000
    ensures |r| == 1 ==> r[0] == c as int
    ensures |r| == 2 ==> 0xD800 <= r[0] < 0xDC00 && 0xDC00 <= r[1] < 0xE000
    ensures |r| == 2 ==> 0x1_0000 + (r[0] - 0xD800) * 0x400 + (r[1] - 0xDC00) == c as int
  {
    var n := c as int;
    if n < 0x1_0000 then [n]
    else [0xD800 + (n - 0x1_0000) / 0x400, 0xDC00 + (n - 0x1_0000) % 0x400]
  }

  /** The UTF-16 code units of a string: the `char` array of a Java `String`. */
  function Utf16(s: string): (r: seq<int>)
    ensures |s| <= |r| <= 2 * |s|
    ensures forall i :: 0 <= i < |r| ==> 0 <= r[i] < 0x1_0000
  {
    if |s| == 0 then [] else Utf16Char(s[0]) + Utf16(s[1..])
  }
}

=== FILE: http_body.dfy ===
/** The views `Http.RequestBody` offers over a parsed request body: the
    form view, the conversion to bytes, the checked cast, and the printed
    form of the body.

    The body is a Java `Object`; here it is a tagged value with one case per
    runtime class the code tests for. Library calls whose code is not part
    of this model (`URLEncoder.encode`, `Json.stringify`, `XML.toBytes`,
    `RawBuffer.asBytes`, `Object.getClass().getName()`, `Json.fromJson`)
    are function-valued parameters. */
module HttpBody {
  import opened Common

  /** A body, by the family of classes the code tests it against. JSON
      nodes, XML documents, raw buffers and multipart forms are handles to
      objects this model does not look inside. A map is listed in its
      `entrySet` iteration order. The elements of a `String[]` may be null
      (`None`). `OtherObject` is an instance of none of the tested classes. */
  datatype Value =
    | Null
    | OptionalValue(present: bool)
    | ByteStringValue(bytes: Bytes)
    | ByteArray(bytes: Bytes)
    | Text(s: string)
    | TextArray(items: seq<Option<string>>)
    | RawBufferValue(raw: nat)
    | JsonNode(json: nat)
    | XmlDocument(doc: nat)
    | MapValue(entries: seq<Entry>)
    | MultipartValue(form: nat)
    | OtherObject(className: string)

  datatype Entry = Entry(key: Value, value: Value)

  /** The classes a caller can pass to `as`. `ObjectClass` is
      `java.lang.Object`; `OtherClass` names any class outside the ones the
      code tests for. */
  datatype ClassTag =
    | ObjectClass | OptionalClass | ByteStringClass | ByteArrayClass | StringClass
    | StringArrayClass | RawBufferClass | JsonNodeClass | DocumentClass | MapClass
    | MultipartClass | OtherClass(name: string)

  /** The library calls the views depend on. `rawAsBytes` gives `None`
      (Java `null`) for a raw buffer too large to have been kept in memory. */
  datatype Library = Library(
    urlEncode: string -> string,
    jsonStringify: nat -> string,
    xmlToBytes: nat -> Bytes,
    rawAsBytes: nat -> Option<Bytes>)

  // ---------------------------------------------------------------------------
  // as(Class)
  // ---------------------------------------------------------------------------

  /** The classes the code itself tests bodies against. */
  predicate Tested(t: ClassTag) {
    !t.ObjectClass? && !t.OtherClass?
  }

  /** The tested class a non-null value belongs to; `OtherClass` for a value
      outside all of them. */
  function ClassOf(v: Value): (t: ClassTag)
    requires !v.Null?
    ensures Tested(t) <==> !v.OtherObject?
    ensures v.OtherObject? ==> t == OtherClass(v.className)
    ensures v.OptionalValue? <==> t == OptionalClass
    ensures v.ByteStringValue? <==> t == ByteStringClass
    ensures v.ByteArray? <==> t == ByteArrayClass
    ensures v.Text? <==> t == StringClass
    ensures v.TextArray? <==> t == StringArrayClass
    ensures v.RawBufferValue? <==> t == RawBufferClass
    ensures v.JsonNode? <==> t == JsonNodeClass
    ensures v.XmlDocument? <==> t == DocumentClass
    ensures v.MapValue? <==> t == MapClass
    ensures v.MultipartValue? <==> t == MultipartClass
  {
    match v
    case OptionalValue(_) => OptionalClass
    case ByteStringValue(_) => ByteStringClass
    case ByteArray(_) => ByteArrayClass
    case Text(_) => StringClass
    case TextArray(_) => StringArrayClass
    case RawBufferValue(_) => RawBufferClass
    case JsonNode(_) => JsonNodeClass
    case XmlDocument(_) => DocumentClass
    case MapValue(_) => MapClass
    case MultipartValue(_) => MultipartClass
    case OtherObject(name) => OtherClass(name)
  }

  /** The runtime class hierarchy for the classes the code does not test
      for: whether a non-null value is an instance of the named class, such
      as a supertype (`CharSequence`, `Serializable`) or a concrete class
      (`HashMap`). Reflection is outside this model, so it is an input. */
  type Hierarchy = (Value, string) -> bool

  /** `Class.isInstance`: never true of null. For `Object` true of every
      other value; for a tested class true exactly of that class's values;
      for any other class true of a value of that very class and otherwise
      as the hierarchy says. */
  function IsInstance(isA: Hierarchy, t: ClassTag, v: Value): (r: bool)
    ensures r ==> !v.Null?
    ensures t == ObjectClass ==> (r <==> !v.Null?)
    ensures Tested(t) ==> (r <==> !v.Null? && ClassOf(v) == t)
    ensures t.OtherClass? && !v.Null? && ClassOf(v) == t ==> r
  {
    && !v.Null?
    && (|| t == ObjectClass
        || ClassOf(v) == t
        || (t.OtherClass? && isA(v, t.name)))
  }

  /** `RequestBody.as`: the body itself when it is an instance of the class,
      `null` otherwise. */
  function As(isA: Hierarchy, body: Value, t: ClassTag): (r: Option<Value>)
    ensures r.Some? <==> IsInstance(isA, t, body)
    ensures r.Some? ==> r.value == body
  {
    if IsInstance(isA, t, body) then Some(body) else None
  }

  /** A null body is an instance of nothing. A non-null body is an instance
      of `Object`, and of exactly one tested class unless it lies outside
      all of them. */
  lemma AsSelectsOneClass(isA: Hierarchy, body: Value, t1: ClassTag, t2: ClassTag)
    ensures body.Null? ==> As(isA, body, t1).None?
    ensures !body.Null? ==> As(isA, body, ObjectClass) == Some(body)
    ensures !body.Null? && !body.OtherObject? ==> Tested(ClassOf(body)) && As(isA, body, ClassOf(body)) == Some(body)
    ensures body.OtherObject? && Tested(t1) ==> As(isA, body, t1).None?
    ensures Tested(t1) && Tested(t2) && As(isA, body, t1).Some? && As(isA, body, t2).Some? ==> t1 == t2
  {
  }

  /** `asText`: the body's string when the body is a `String`. */
  function AsText(isA: Hierarchy, body: Value): (r: Option<string>)
    ensures r.Some? <==> body.Text?
    ensures r.Some? ==> body == Text(r.value)
  {
    match As(isA, body, StringClass)
    case Some(Text(s)) => Some(s)
    case _ => None
  }

  /** `asJson`, `asXml`, `asRaw` and `asMultipartFormData`: the body when it
      has the class the view names, `null` otherwise. */
  function AsJson(isA: Hierarchy, body: Value): (r: Option<Value>)
    ensures r.Some? <==> body.JsonNode?
    ensures r.Some? ==> r.value == body
  {
    As(isA, body, JsonNodeClass)
  }

  function AsXml(isA: Hierarchy, body: Value): (r: Option<Value>)
    ensures r.Some? <==> body.XmlDocument?
    ensures r.Some? ==> r.value == body
  {
    As(isA, body, DocumentClass)
  }

  function AsRaw(isA: Hierarchy, body: Value): (r: Option<Value>)
    ensures r.Some? <==> body.RawBufferValue?
    ensures r.Some? ==> r.value == body
  {
    As(isA, body, RawBufferClass)
  }

  function AsMultipartFormData(isA: Hierarchy, body: Value): (r: Option<Value>)
    ensures r.Some? <==> body.MultipartValue?
    ensures r.Some? ==> r.value == body
  {
    As(isA, body, MultipartClass)
  }

  /** `parseJson`: empty for a body that is not JSON; for a JSON body the
      converted value, where a `null` conversion makes `Optional.of` throw.
      `fromJson` is `Json.fromJson`, with `None` for a `null` result. */
  function ParseJson<A>(isA: Hierarchy, body: Value, fromJson: nat -> Option<A>): (r: Result<Option<A>, Exception>)
    ensures r == Ok(None) <==> !body.JsonNode?
    ensures r.Err? <==> body.JsonNode? && fromJson(body.json).None?
    ensures r.Err? ==> r.error == NullPointerException
    ensures r.Ok? && r.value.Some? ==> body.JsonNode? && Some(r.value.value) == fromJson(body.json)
  {
    if body.JsonNode? then
      match AsJson(isA, body)
      case Some(JsonNode(node)) =>
        (match fromJson(node)
         case None => Err(NullPointerException)
         case Some(x) => Ok(Some(x)))
      case _ => Ok(None)
    else Ok(None)
  }

  // ---------------------------------------------------------------------------
  // asFormUrlEncoded
  // ---------------------------------------------------------------------------

  /** The best-effort form test: the body is a map that is empty or whose
      first entry maps a `String` to a `String[]`. The other entries are not
      inspected. */
  predicate LooksLikeForm(body: Value) {
    && body.MapValue?
    && (|body.entries| == 0
        || (body.entries[0].key.Text? && body.entries[0].value.TextArray?))
  }

  /** `asFormUrlEncoded`: the map itself (the empty map when it is empty)
      when it looks like a form, `null` for every other body. */
  function AsFormUrlEncoded(body: Value): (r: Option<seq<Entry>>)
    ensures r.Some? <==> LooksLikeForm(body)
    ensures r.Some? ==> r.value == body.entries
    ensures body.MapValue? && |body.entries| == 0 ==> r == Some([])
  {
    if body.MapValue? then
      if |body.entries| == 0 then Some([])
      else
        var first := body.entries[0];
        if first.key.Text? && first.value.TextArray? then Some(body.entries) else None
    else None
  }

  // ---------------------------------------------------------------------------
  // Form serialisation
  // ---------------------------------------------------------------------------

  /** A well-typed entry: a `String` key with a `String[]` value none of
      whose elements is null. */
  predicate WellTyped(e: Entry) {
    && e.key.Text?
    && e.value.TextArray?
    && forall i :: 0 <= i < |e.value.items| ==> e.value.items[i].Some?
  }

  /** The (key, value) pairs a form lists, one per value, in entry order and
      then value order. The stream stops at the first entry that is not
      well typed: a null key, a null array or a null element reaches
      `URLEncoder.encode` or `Arrays.stream` and throws a
      `NullPointerException`; a key or value of another class fails the
      cast. The key is encoded before the values are streamed, so a bad key
      is reported first. */
  function FormPairs(entries: seq<Entry>): (r: Result<seq<(string, string)>, Exception>)
    ensures r.Ok? <==> forall i :: 0 <= i < |entries| ==> WellTyped(entries[i])
    decreases |entries|
  {
    if |entries| == 0 then Ok([])
    else
      var e := entries[0];
      if e.key.Null? then Err(NullPointerException)
      else if !e.key.Text? then Err(ClassCastException)
      else if e.value.Null? then Err(NullPointerException)
      else if !e.value.TextArray? then Err(ClassCastException)
      else if exists i :: 0 <= i < |e.value.items| && e.value.items[i].None? then Err(NullPointerException)
      else
        match FormPairs(entries[1..])
        case Err(x) => Err(x)
        case Ok(rest) => Ok(PairsOf(e.key.s, e.value.items) + rest)
  }

  /** The pairs one key contributes: one per value, in order. */
  function PairsOf(key: string, values: seq<Option<string>>): (r: seq<(string, string)>)
    requires forall i :: 0 <= i < |values| ==> values[i].Some?
    ensures |r| == |values|
    ensures forall i :: 0 <= i < |r| ==> r[i] == (key, values[i].value)
  {
    seq(|values|, i requires 0 <= i < |values| => (key, values[i].value))
  }

  /** The total number of values a list of well-typed entries carries. */
  function ValueCount(entries: seq<Entry>): nat
    requires forall e :: e in entries ==> WellTyped(e)
  {
    if |entries| == 0 then 0
    else
      assert entries[0] in entries;
      assert WellTyped(entries[0]);
      |entries[0].value.items| + ValueCount(entries[1..])
  }

  /** Serialisation throws exactly when some entry is not well typed; a form
      of well-typed entries yields one pair per value. */
  lemma {:induction false} FormPairsSucceedsIffWellTyped(entries: seq<Entry>)
    ensures FormPairs(entries).Ok? <==> forall e :: e in entries ==> WellTyped(e)
    ensures FormPairs(entries).Ok? ==> |FormPairs(entries).value| == ValueCount(entries)
    decreases |entries|
  {
    if |entries| > 0 {
      FormPairsSucceedsIffWellTyped(entries[1..]);
      assert entries == [entries[0]] + entries[1..];
      if !WellTyped(entries[0]) {
        assert FormPairs(entries).Err?;
      }
    }
  }

  /** Serialising two lists of entries one after the other gives their
      pairs one after the other, so an entry with no values contributes
      nothing. */
  lemma {:induction false} FormPairsAppend(a: seq<Entry>, b: seq<Entry>)
    requires FormPairs(a).Ok? && FormPairs(b).Ok?
    ensures FormPairs(a + b) == Ok(FormPairs(a).value + FormPairs(b).value)
    decreases |a|
  {
    if |a| == 0 {
      assert a + b == b;
      assert FormPairs(a) == Ok([]);
      assert [] + FormPairs(b).value == FormPairs(b).value;
    } else {
      var ab := a + b;
      assert ab[0] == a[0];
      assert ab[1..] == a[1..] + b;
      FormPairsAppend(a[1..], b);
      FormPairsCons(a);
      FormPairsCons(ab);
      var here := PairsOf(a[0].key.s, a[0].value.items);
      var x := FormPairs(a[1..]).value;
      var y := FormPairs(b).value;
      assert here + (x + y) == (here + x) + y;
    }
  }

  /** One step of serialisation past a well-typed first entry. */
  lemma FormPairsCons(entries: seq<Entry>)
    requires |entries| > 0 && WellTyped(entries[0])
    ensures FormPairs(entries) ==
      if FormPairs(entries[1..]).Err? then FormPairs(entries[1..])
      else Ok(PairsOf(entries[0].key.s, entries[0].value.items) + FormPairs(entries[1..]).value)
  {
    var e := entries[0];
    assert !exists i :: 0 <= i < |e.value.items| && e.value.items[i].None?;
  }

  lemma EmptyEntryContributesNothing(key: string, rest: seq<Entry>)
    ensures FormPairs([Entry(Text(key), TextArray([]))] + rest) == FormPairs(rest)
  {
    assert ([Entry(Text(key), TextArray([]))] + rest)[1..] == rest;
    assert PairsOf(key, []) == [];
    assert FormPairs(rest).Ok? ==> [] + FormPairs(rest).value == FormPairs(rest).value;
  }

  /** `enc(key)=enc(value)` for one pair: the encoded key, then `=`, then
      the encoded value. */
  function EncodePair(lib: Library, pair: (string, string)): (r: string)
    ensures |r| == |lib.urlEncode(pair.0)| + 1 + |lib.urlEncode(pair.1)|
    ensures r[..|lib.urlEncode(pair.0)|] == lib.urlEncode(pair.0)
    ensures r[|lib.urlEncode(pair.0)|] == '='
    ensures r[|lib.urlEncode(pair.0)| + 1..] == lib.urlEncode(pair.1)
  {
    lib.urlEncode(pair.0) + "=" + lib.urlEncode(pair.1)
  }

  function EncodePairs(lib: Library, pairs: seq<(string, string)>): (r: seq<string>)
    ensures |r| == |pairs|
    ensures forall i :: 0 <= i < |r| ==> r[i] == EncodePair(lib, pairs[i])
  {
    seq(|pairs|, i requires 0 <= i < |pairs| => EncodePair(lib, pairs[i]))
  }

  /** The `application/x-www-form-urlencoded` text of a list of pairs:
      the encoded pairs joined with `&`. Every pair contributes at least its
      `=`, so the text is empty exactly when there are no pairs. */
  function FormText(lib: Library, pairs: seq<(string, string)>): (r: string)
    ensures |r| == 0 <==> |pairs| == 0
  {
    var parts := EncodePairs(lib, pairs);
    assert |pairs| > 0 ==> |parts[0]| > 0;
    Join(parts, "&")
  }

  // ---------------------------------------------------------------------------
  // Reading form text back
  // ---------------------------------------------------------------------------

  /** `s` cut at every `sep`; always at least one piece. */
  function Split(s: string, sep: char): (r: seq<string>)
    ensures |r| > 0
    decreases |s|
  {
    var k := RunLength(s, {sep});
    if k == |s| then [s] else [s[..k]] + Split(s[k + 1..], sep)
  }

  /** One `name=value` piece cut at its first `=`. */
  function SplitPair(part: string): (string, string) {
    var k := RunLength(part, {'='});
    if k == |part| then (part, "") else (part[..k], part[k + 1..])
  }

  /** How a server reads form text: pieces between `&`, each cut at its
      first `=`. The empty text carries no pairs. */
  function ParseFormText(text: string): seq<(string, string)> {
    if |text| == 0 then []
    else
      var parts := Split(text, '&');
      seq(|parts|, i requires 0 <= i < |parts| => SplitPair(parts[i]))
  }

  /** URL encoding escapes `&` and `=` (as `%26` and `%3D`). */
  ghost predicate EscapesDelimiters(lib: Library) {
    forall s :: '&' !in lib.urlEncode(s) && '=' !in lib.urlEncode(s)
  }

  /** The first `c` in `a + [c] + b` is the one after `a` when `a` holds none. */
  lemma {:induction false} RunLengthToDelimiter(a: string, c: char, b: string)
    requires c !in a
    ensures RunLength(a + [c] + b, {c}) == |a|
  {
    if |a| > 0 {
      assert (a + [c] + b)[1..] == a[1..] + [c] + b;
      RunLengthToDelimiter(a[1..], c, b);
    }
  }

  lemma {:induction false} SplitJoin(parts: seq<string>, sep: char)
    requires |parts| > 0
    requires forall i :: 0 <= i < |parts| ==> sep !in parts[i]
    ensures Split(Join(parts, [sep]), sep) == parts
    decreases |parts|
  {
    var s := Join(parts, [sep]);
    if |parts| > 1 {
      var tail := Join(parts[1..], [sep]);
      RunLengthToDelimiter(parts[0], sep, tail);
      assert s[..|parts[0]|] == parts[0];
      assert s[|parts[0]| + 1..] == tail;
      SplitJoin(parts[1..], sep);
      assert parts == [parts[0]] + parts[1..];
    }
  }

  /** Reading the form text back gives, for every pair in order, the encoded
      key and the encoded value: the text loses nothing but what URL
      encoding itself does. */
  lemma FormTextRoundTrip(lib: Library, pairs: seq<(string, string)>)
    requires EscapesDelimiters(lib)
    ensures |ParseFormText(FormText(lib, pairs))| == |pairs|
    ensures forall i :: 0 <= i < |pairs| ==>
      ParseFormText(FormText(lib, pairs))[i] == (lib.urlEncode(pairs[i].0), lib.urlEncode(pairs[i].1))
  {
    var encoded := EncodePairs(lib, pairs);
    if |pairs| > 0 {
      forall i | 0 <= i < |encoded| ensures '&' !in encoded[i] {
        var k := lib.urlEncode(pairs[i].0);
        var v := lib.urlEncode(pairs[i].1);
        assert encoded[i] == k + "=" + v;
        assert '&' !in k && '&' !in v;
      }
      SplitJoin(encoded, '&');
      assert |FormText(lib, pairs)| > 0;
      forall i | 0 <= i < |pairs|
        ensures SplitPair(encoded[i]) == (lib.urlEncode(pairs[i].0), lib.urlEncode(pairs[i].1))
      {
        var k := lib.urlEncode(pairs[i].0);
        var v := lib.urlEncode(pairs[i].1);
        assert '=' !in k;
        RunLengthToDelimiter(k, '=', v);
        assert encoded[i] == k + ['='] + v;
        assert encoded[i][..|k|] == k;
        assert encoded[i][|k| + 1..] == v;
      }
    }
  }

  // ---------------------------------------------------------------------------
  // asBytes
  // ---------------------------------------------------------------------------

  /** `RequestBody.asBytes`. `Ok(None)` is a `null` result; `Err` an
      exception thrown by the form serialisation. */
  function AsBytes(lib: Library, body: Value): (r: Result<Option<Bytes>, Exception>)
    ensures body.Null? ==> r == Ok(Some([]))
    ensures body.OptionalValue? ==> r == Ok(if body.present then None else Some([]))
    ensures body.ByteStringValue? || body.ByteArray? ==> r == Ok(Some(body.bytes))
    ensures body.Text? ==> r.Ok? && r.value.Some? && DecodeUtf8(r.value.value) == Some(body.s)
    ensures body.JsonNode? ==> r.Ok? && r.value.Some? && DecodeUtf8(r.value.value) == Some(lib.jsonStringify(body.json))
    ensures body.XmlDocument? ==> r == Ok(Some(lib.xmlToBytes(body.doc)))
    ensures body.RawBufferValue? ==> r == Ok(lib.rawAsBytes(body.raw))
    ensures body.MapValue? && LooksLikeForm(body) ==>
      (r.Err? <==> FormPairs(body.entries).Err?)
      && (r.Ok? ==> r.value.Some? && DecodeUtf8(r.value.value) == Some(FormText(lib, FormPairs(body.entries).value)))
    ensures body.MapValue? && !LooksLikeForm(body) ==> r == Ok(None)
    ensures body.TextArray? || body.MultipartValue? || body.OtherObject? ==> r == Ok(None)
    ensures r.Err? ==> body.MapValue? && (|body.entries| > 1 || r.error == NullPointerException)
  {
    match body
    case Null => Ok(Some([]))
    case OptionalValue(present) => if !present then Ok(Some([])) else Ok(None)
    case ByteStringValue(bytes) => Ok(Some(bytes))
    case ByteArray(bytes) => Ok(Some(bytes))
    case Text(s) =>
      Utf8RoundTrip(s);
      Ok(Some(Utf8(s)))
    case RawBufferValue(raw) => Ok(lib.rawAsBytes(raw))
    case JsonNode(json) =>
      Utf8RoundTrip(lib.jsonStringify(json));
      Ok(Some(Utf8(lib.jsonStringify(json))))
    case XmlDocument(doc) => Ok(Some(lib.xmlToBytes(doc)))
    case _ =>
      match AsFormUrlEncoded(body)
      case None => Ok(None)
      case Some(form) =>
        match FormPairs(form)
        case Err(x) =>
          FormPairsFailsPastFirst(form);
          Err(x)
        case Ok(pairs) =>
          Utf8RoundTrip(FormText(lib, pairs));
          Ok(Some(Utf8(FormText(lib, pairs))))
  }

  /** The bytes of a `String` or JSON body are its standard UTF-8 encoding,
      not merely some bytes that decode to it: shortest-form UTF-8 has only
      one encoding of each text. */
  lemma AsBytesOfTextIsUtf8(lib: Library, body: Value)
    requires body.Text? || body.JsonNode?
    ensures AsBytes(lib, body) == Ok(Some(Utf8(if body.Text? then body.s else lib.jsonStringify(body.json))))
  {
    var r := AsBytes(lib, body);
    Utf8OfDecode(r.value.value);
  }

  /** The form test has vetted the classes of the first entry's key and
      value, so serialisation can only throw on a later entry or on a null
      element of the first entry's array. */
  lemma FormPairsFailsPastFirst(form: seq<Entry>)
    requires |form| == 0 || (form[0].key.Text? && form[0].value.TextArray?)
    requires FormPairs(form).Err?
    ensures |form| > 1 || FormPairs(form).error == NullPointerException
  {
  }

  /** An empty form serialises to no bytes. */
  lemma EmptyFormGivesNoBytes(lib: Library)
    ensures AsBytes(lib, MapValue([])) == Ok(Some([]))
  {
  }

  // ---------------------------------------------------------------------------
  // toString
  // ---------------------------------------------------------------------------

  const ToStringPrefix: string := "RequestBody of "

  /** `getClass().getName()` agrees with the class name an object outside
      the tested classes carries. */
  ghost predicate NamesOwnClass(className: Value -> string) {
    forall v: Value :: v.OtherObject? ==> className(v) == v.className
  }

  /** `RequestBody.toString`: the prefix, then `null` or the body's class
      printed as `class <name>`. */
  function ToString(body: Value, className: Value -> string): (r: string)
    requires NamesOwnClass(className)
    ensures |r| >= |ToStringPrefix| && r[..|ToStringPrefix|] == ToStringPrefix
    ensures r[|ToStringPrefix|..] == "null" <==> body.Null?
    ensures !body.Null? ==> r == ToStringPrefix + "class " + className(body)
    ensures body.OtherObject? ==> r == ToStringPrefix + "class " + body.className
  {
    var suffix := if body.Null? then "null" else "class " + className(body);
    assert (ToStringPrefix + suffix)[|ToStringPrefix|..] == suffix;
    assert !body.Null? ==> suffix[0] == 'c';
    ToStringPrefix + suffix
  }

  /** The printed form tells a null body from every other body, and tells
      apart bodies whose classes have different names. */
  lemma ToStringDistinguishesClasses(a: Value, b: Value, className: Value -> string)
    requires NamesOwnClass(className)
    requires ToString(a, className) == ToString(b, className)
    ensures a.Null? <==> b.Null?
    ensures !a.Null? ==> className(a) == className(b)
  {
    var ra := ToString(a, className);
    var rb := ToString(b, className);
    assert ra[|ToStringPrefix|..] == rb[|ToStringPrefix|..];
    if !a.Null? && !b.Null? {
      assert ra[|ToStringPrefix| + 6..] == className(a);
      assert rb[|ToStringPrefix| + 6..] == className(b);
    }
  }
}

=== FILE: mode.dfy ===
/** `server.utils.Mode`, the Java application mode, and its conversion to
    the Scala `server.Mode` objects. */
module Mode {

  datatype JavaMode = DEV | TEST | PROD

  datatype ScalaMode = Dev | Test | Prod

  /** `asScala`: `DEV` and `PROD` are checked in turn; every other mode is
      `Test`. */
  function AsScala(m: JavaMode): (r: ScalaMode)
    ensures m == DEV ==> r == Dev
    ensures m == PROD ==> r == Prod
    ensures m == TEST ==> r == Test
  {
    if m == DEV then Dev
    else if m == PROD then Prod
    else Test
  }

  /** The inverse mapping, by name. */
  function AsJava(m: ScalaMode): JavaMode {
    match m
    case Dev => DEV
    case Test => TEST
    case Prod => PROD
  }

  /** The conversion is a bijection: distinct modes give distinct Scala
      modes, and every Scala mode is reached. */
  lemma AsScalaIsBijective(a: JavaMode, b: JavaMode, s: ScalaMode)
    ensures AsScala(a) == AsScala(b) ==> a == b
    ensures AsJava(AsScala(a)) == a
    ensures AsScala(AsJava(s)) == s
  {
  }
}

=== FILE: multipart.dfy ===
/** `Http.MultipartFormData`: file parts, their constructor defaults, and
    the lookup of a file part by key. The file reference type `A` stays a
    type parameter, as in the Java generic. */
module Multipart {
  import opened Common

  /** A Java `long`. */
  newtype long = x: int | -0x8000_0000_0000_0000 <= x < 0x8000_0000_0000_0000

  /** The size a file part reports when none was given. */
  const UnknownSize: long := -1

  /** The disposition a file part has when none was given. */
  const DefaultDisposition: string := "form-data"

  /** A file part; its key is a reference and may be `null` (`None`). */
  datatype FilePart<A> = FilePart(
    key: Option<string>,
    filename: string,
    contentType: string,
    ref: A,
    fileSize: long,
    dispositionType: string)

  /** The six-argument constructor: every field is the argument of that name. */
  function NewFilePartFull<A>(key: Option<string>, filename: string, contentType: string, ref: A,
                              fileSize: long, dispositionType: string): (p: FilePart<A>)
    ensures p.key == key && p.filename == filename && p.contentType == contentType
    ensures p.ref == ref && p.fileSize == fileSize
    ensures p.dispositionType == dispositionType
  {
    FilePart(key, filename, contentType, ref, fileSize, dispositionType)
  }

  /** The five-argument constructor: disposition `form-data`. */
  function NewFilePartSized<A>(key: Option<string>, filename: string, contentType: string, ref: A,
                               fileSize: long): (p: FilePart<A>)
    ensures p.key == key && p.filename == filename && p.contentType == contentType
    ensures p.ref == ref && p.fileSize == fileSize
    ensures p.dispositionType == "form-data"
  {
    NewFilePartFull(key, filename, contentType, ref, fileSize, DefaultDisposition)
  }

  /** The four-argument constructor: size unknown (-1), disposition `form-data`. */
  function NewFilePart<A>(key: Option<string>, filename: string, contentType: string, ref: A): (p: FilePart<A>)
    ensures p.key == key && p.filename == filename && p.contentType == contentType && p.ref == ref
    ensures p.fileSize == -1
    ensures p.dispositionType == "form-data"
  {
    NewFilePartSized(key, filename, contentType, ref, UnknownSize)
  }

  /** A multipart body; `files` is what the abstract `getFiles` returns,
      where an element may be `null` (`None`). */
  datatype MultipartFormData<A> = MultipartFormData(files: seq<Option<FilePart<A>>>)

  /** `String.equals` of a part's key with the argument: a `null` argument
      equals nothing. Only called on a non-null key. */
  predicate KeyEquals(partKey: string, key: Option<string>) {
    key.Some? && key.value == partKey
  }

  /** A list element `getFile` can test without throwing: a part with a
      non-null key. */
  predicate Readable<A>(p: Option<FilePart<A>>) {
    p.Some? && p.value.key.Some?
  }

  /** A list element `getFile` tests and passes over. */
  predicate PassesOver<A>(p: Option<FilePart<A>>, key: Option<string>) {
    Readable(p) && !KeyEquals(p.value.key.value, key)
  }

  /** `getFile`: walks the file parts in order and returns the first whose
      key equals `key`, or `null` when none does. Reaching a `null` part or
      a part with a `null` key before any match throws a
      `NullPointerException`. */
  method GetFile<A>(form: MultipartFormData<A>, key: Option<string>)
    returns (r: Result<Option<FilePart<A>>, Exception>)
    ensures r == Ok(None) <==> forall i :: 0 <= i < |form.files| ==> PassesOver(form.files[i], key)
    ensures r.Err? <==>
      exists i :: 0 <= i < |form.files| && !Readable(form.files[i])
        && forall j :: 0 <= j < i ==> PassesOver(form.files[j], key)
    ensures r.Ok? && r.value.Some? ==>
      exists i :: 0 <= i < |form.files| && form.files[i] == Some(r.value.value)
        && r.value.value.key.Some? && KeyEquals(r.value.value.key.value, key)
        && forall j :: 0 <= j < i ==> PassesOver(form.files[j], key)
    ensures r.Ok? && r.value.Some? ==> key.Some?
  {
    var i := 0;
    while i < |form.files|
      invariant 0 <= i <= |form.files|
      invariant forall j :: 0 <= j < i ==> PassesOver(form.files[j], key)
    {
      var part := form.files[i];
      if part.None? || part.value.key.None? {
        return Err(NullPointerException);
      }
      if KeyEquals(part.value.key.value, key) {
        return Ok(Some(part.value));
      }
      i := i + 1;
    }
    return Ok(None);
  }
}

=== FILE: named.dfy ===
/** `NamedImpl`, the value form of the `javax.inject.Named` qualifier:
    equality by value, and the hash code the `java.lang.annotation.Annotation`
    contract prescribes for an annotation whose only member is `value`,
    computed with Java's 32-bit wrapping `int` arithmetic. */
module Named {
  import opened Common

  const TwoTo32: int := 0x1_0000_0000

  datatype NamedImpl = NamedImpl(value: string)

  /** Any object `equals` can be handed: an implementation of `Named`
      (this class or another) exposing its `value()`, which another
      implementation may return as `null` (`None`), or anything else. */
  datatype Object = NamedObject(namedValue: Option<string>) | OtherObject

  /** The object a `NamedImpl` is. */
  function AsObject(n: NamedImpl): Object {
    NamedObject(Some(n.value))
  }

  /** `value()`: the string the annotation was built with. */
  function Value(n: NamedImpl): (v: string)
    ensures NamedImpl(v) == n
  {
    n.value
  }

  /** `equals`: false for anything that is not a `Named`; otherwise true
      exactly when the other value is a string equal to this one, so false
      when it is `null`. */
  function Equals(n: NamedImpl, o: Object): (r: bool)
    ensures !o.NamedObject? ==> !r
    ensures o.NamedObject? && o.namedValue.None? ==> !r
    ensures o.NamedObject? && o.namedValue.Some? ==> (r <==> n.value == o.namedValue.value)
  {
    match o
    case OtherObject => false
    case NamedObject(None) => false
    case NamedObject(Some(v)) => n.value == v
  }

  /** `equals` is reflexive and symmetric on `NamedImpl`s, and coincides
      with equality of the annotations. */
  lemma EqualsIsEquivalence(a: NamedImpl, b: NamedImpl)
    ensures Equals(a, AsObject(a))
    ensures Equals(a, AsObject(b)) == Equals(b, AsObject(a))
    ensures Equals(a, AsObject(b)) <==> a == b
  {
  }

  // ---------------------------------------------------------------------------
  // String.hashCode
  // ---------------------------------------------------------------------------

  /** `String.hashCode` as an unsigned 32-bit value: `h = 31 * h + unit`
      over the UTF-16 code units, wrapping at 2^32. */
  function HashUnits(units: seq<int>): (h: int)
    ensures 0 <= h < TwoTo32
  {
    if |units| == 0 then 0
    else (31 * HashUnits(units[..|units| - 1]) + units[|units| - 1]) % TwoTo32
  }

  function Pow31(n: nat): nat {
    if n == 0 then 1 else 31 * Pow31(n - 1)
  }

  /** The polynomial `String.hashCode` is documented as:
      s[0]*31^(n-1) + s[1]*31^(n-2) + ... + s[n-1], without wrapping. */
  function Polynomial(units: seq<int>): int {
    if |units| == 0 then 0 else units[0] * Pow31(|units| - 1) + Polynomial(units[1..])
  }

  lemma {:induction false} PolynomialSnoc(units: seq<int>)
    requires |units| > 0
    ensures Polynomial(units) == 31 * Polynomial(units[..|units| - 1]) + units[|units| - 1]
    decreases |units|
  {
    if |units| > 1 {
      var init := units[..|units| - 1];
      assert units[1..][..|units[1..]| - 1] == init[1..];
      assert units[1..][|units[1..]| - 1] == units[|units| - 1];
      PolynomialSnoc(units[1..]);
      assert init[0] == units[0];
      calc {
        Polynomial(units);
        units[0] * Pow31(|units| - 1) + Polynomial(units[1..]);
        units[0] * (31 * Pow31(|units| - 2)) + 31 * Polynomial(init[1..]) + units[|units| - 1];
        { assert units[0] * (31 * Pow31(|units| - 2)) == 31 * (units[0] * Pow31(|units| - 2)); }
        31 * (init[0] * Pow31(|init| - 1) + Polynomial(init[1..])) + units[|units| - 1];
        31 * Polynomial(init) + units[|units| - 1];
      }
    } else {
      assert units[..0] == [];
    }
  }

  lemma ModStep(x: int, c: int)
    ensures (31 * (x % TwoTo32) + c) % TwoTo32 == (31 * x + c) % TwoTo32
  {
  }

  /** The wrapping loop computes the documented polynomial modulo 2^32. */
  lemma {:induction false} HashIsPolynomial(units: seq<int>)
    ensures HashUnits(units) == Polynomial(units) % TwoTo32
    decreases |units|
  {
    if |units| > 0 {
      var init := units[..|units| - 1];
      HashIsPolynomial(init);
      PolynomialSnoc(units);
      ModStep(Polynomial(init), units[|units| - 1]);
    }
  }

  /** `String.hashCode`, as the unsigned reading of its 32 bits. */
  function StringHash(s: string): (h: int)
    ensures 0 <= h < TwoTo32
  {
    HashUnits(Utf16(s))
  }

  // ---------------------------------------------------------------------------
  // Exclusive or on 32-bit patterns
  // ---------------------------------------------------------------------------

  function Pow2(n: nat): (p: nat)
    ensures p > 0
  {
    if n == 0 then 1 else 2 * Pow2(n - 1)
  }

  /** The exclusive or of the low `width` bits of `a` and `b`, least
      significant bit first. */
  function Xor(a: nat, b: nat, width: nat): (r: nat)
    ensures r < Pow2(width)
  {
    if width == 0 then 0
    else (if a % 2 == b % 2 then 0 else 1) + 2 * Xor(a / 2, b / 2, width - 1)
  }

  lemma {:induction false} XorCommutes(a: nat, b: nat, width: nat)
    ensures Xor(a, b, width) == Xor(b, a, width)
  {
    if width > 0 {
      XorCommutes(a / 2, b / 2, width - 1);
    }
  }

  /** Exclusive or with the same pattern twice gives back the original. */
  lemma {:induction false} XorCancels(a: nat, b: nat, width: nat)
    requires a < Pow2(width)
    ensures Xor(Xor(a, b, width), b, width) == a
  {
    if width > 0 {
      var x := Xor(a, b, width);
      var low := if a % 2 == b % 2 then 0 else 1;
      var rest := Xor(a / 2, b / 2, width - 1);
      assert x == low + 2 * rest;
      assert x % 2 == low && x / 2 == rest;
      XorCancels(a / 2, b / 2, width - 1);
    }
  }

  /** Exclusive or with zero changes nothing. */
  lemma {:induction false} XorZero(a: nat, width: nat)
    requires a < Pow2(width)
    ensures Xor(a, 0, width) == a
  {
    if width > 0 {
      XorZero(a / 2, width - 1);
    }
  }

  lemma {:induction false} Pow2Add(m: nat, n: nat)
    ensures Pow2(m + n) == Pow2(m) * Pow2(n)
  {
    if m > 0 {
      Pow2Add(m - 1, n);
    }
  }

  lemma Pow2Of32()
    ensures Pow2(32) == TwoTo32
  {
    assert Pow2(8) == 256;
    Pow2Add(8, 8);
    Pow2Add(16, 16);
  }

  // ---------------------------------------------------------------------------
  // hashCode
  // ---------------------------------------------------------------------------

  /** `"value".hashCode()`, a constant of the annotation contract. */
  const ValueNameHash: int := 111972721

  lemma ValueNameHashIsStringHash()
    ensures StringHash("value") == ValueNameHash
  {
    var u := Utf16("value");
    assert u == [118, 97, 108, 117, 101];
    assert u[..1] == [118];
    assert u[..2] == [118, 97];
    assert u[..3] == [118, 97, 108];
    assert u[..4] == [118, 97, 108, 117];
    assert u[..1][..0] == [];
    assert u[..2][..1] == u[..1];
    assert u[..3][..2] == u[..2];
    assert u[..4][..3] == u[..3];
    assert u[..4] == u[..|u| - 1];
    assert HashUnits(u[..1]) == 118;
    assert HashUnits(u[..2]) == 3755;
    assert HashUnits(u[..3]) == 116513;
    assert HashUnits(u[..4]) == 3612020;
  }

  /** `127 * "value".hashCode()` in wrapping 32-bit multiplication:
      1335633679. */
  const MemberNameFactor: nat := (127 * ValueNameHash) % TwoTo32

  /** `hashCode`: `(127 * "value".hashCode()) ^ value.hashCode()`, as the
      unsigned reading of its 32 bits. */
  function HashCode(n: NamedImpl): (h: nat)
    ensures h < TwoTo32
    ensures Xor(h, MemberNameFactor, 32) == StringHash(n.value)
  {
    Pow2Of32();
    XorCommutes(MemberNameFactor, StringHash(n.value), 32);
    XorCancels(StringHash(n.value), MemberNameFactor, 32);
    Xor(MemberNameFactor, StringHash(n.value), 32)
  }

  /** The annotation contract in full: the hash is 127 times the hash of
      the member name `value`, wrapped, exclusive-or the hash of the value,
      where both string hashes are the documented polynomial reduced modulo
      2^32. */
  lemma HashCodeFollowsAnnotationContract(n: NamedImpl)
    ensures HashCode(n) ==
      Xor((127 * (Polynomial(Utf16("value")) % TwoTo32)) % TwoTo32,
          Polynomial(Utf16(n.value)) % TwoTo32, 32)
  {
    ValueNameHashIsStringHash();
    HashIsPolynomial(Utf16("value"));
    HashIsPolynomial(Utf16(n.value));
  }

  /** Equal annotations have equal hash codes, as `Object.hashCode` requires. */
  lemma EqualsImpliesEqualHash(a: NamedImpl, b: NamedImpl)
    requires Equals(a, AsObject(b))
    ensures HashCode(a) == HashCode(b)
  {
  }

  /** The empty string hashes to 0, so the annotation with the empty value
      hashes to the member-name factor itself. */
  lemma EmptyValueHash()
    ensures HashCode(NamedImpl("")) == MemberNameFactor
  {
    assert Utf16("") == [];
    assert StringHash("") == 0;
    Pow2Of32();
    XorCommutes(MemberNameFactor, 0, 32);
    XorZero(MemberNameFactor, 32);
  }

  // ---------------------------------------------------------------------------
  // toString
  // ---------------------------------------------------------------------------

  const Prefix: string := "@javax.inject.Named(value="

  /** `toString`: `@javax.inject.Named(value=<value>)`. */
  function ToString(n: NamedImpl): (r: string)
    ensures |r| == |Prefix| + |n.value| + 1
    ensures r[..|Prefix|] == Prefix
    ensures r[|Prefix|..|r| - 1] == n.value
    ensures r[|r| - 1] == ')'
  {
    Prefix + n.value + ")"
  }

  /** The printed form determines the annotation. */
  lemma ToStringInjective(a: NamedImpl, b: NamedImpl)
    requires ToString(a) == ToString(b)
    ensures a == b
  {
  }
}

=== FILE: source_provider.dfy ===
/** `SourceProvider`: finds the line of code that called into the injector
    by walking the current stack from the top and returning the first
    frame whose class is not on an immutable skip list. The stack is an
    input (`new Throwable().getStackTrace()` is runtime reflection). */
module SourceProvider {
  import opened Common

  /** `SourceProvider.class.getName()`. */
  const OwnClassName: string := "server.inject.SourceProvider"

  /** A provider is its set of class names to skip; providers are never
      changed after construction. */
  datatype Provider = Provider(classNamesToSkip: set<string>)

  /** A `Class` object, of which only `getName()` is used. */
  datatype ClassRef = ClassRef(name: string)

  datatype StackTraceElement = StackTraceElement(
    className: string,
    methodName: string,
    fileName: string,
    lineNumber: int)

  /** `DEFAULT_INSTANCE`: skips the provider's own frames only. */
  const DefaultInstance: Provider := Provider({OwnClassName})

  /** `asStrings`: the names of the given classes, in order; a `null` class
      (`None`) makes `getName()` throw. */
  function AsStrings(classes: seq<Option<ClassRef>>): (r: Result<seq<string>, Exception>)
    ensures r.Ok? <==> forall i :: 0 <= i < |classes| ==> classes[i].Some?
    ensures r.Err? ==> r.error == NullPointerException
    ensures r.Ok? ==> |r.value| == |classes|
    ensures r.Ok? ==> forall i :: 0 <= i < |classes| ==> r.value[i] == classes[i].value.name
  {
    if |classes| == 0 then Ok([])
    else if classes[0].None? then Err(NullPointerException)
    else match AsStrings(classes[1..])
      case Err(x) => Err(x)
      case Ok(names) => Ok([classes[0].value.name] + names)
  }

  /** `plusSkippedClasses`: a new provider that skips what this one skips
      and the given classes too; a `null` among them throws. */
  function PlusSkippedClasses(p: Provider, more: seq<Option<ClassRef>>): (q: Result<Provider, Exception>)
    ensures q.Ok? <==> forall i :: 0 <= i < |more| ==> more[i].Some?
    ensures q.Err? ==> q.error == NullPointerException
    ensures q.Ok? ==> forall n :: n in q.value.classNamesToSkip <==>
      n in p.classNamesToSkip || exists i :: 0 <= i < |more| && more[i] == Some(ClassRef(n))
  {
    match AsStrings(more)
    case Err(x) => Err(x)
    case Ok(names) =>
      assert forall n :: n in names <==> exists i :: 0 <= i < |more| && more[i] == Some(ClassRef(n)) by {
        forall n ensures n in names <==> exists i :: 0 <= i < |more| && more[i] == Some(ClassRef(n)) {
          if n in names {
            var i :| 0 <= i < |names| && names[i] == n;
            assert more[i] == Some(ClassRef(n));
          }
          if exists i :: 0 <= i < |more| && more[i] == Some(ClassRef(n)) {
            var i :| 0 <= i < |more| && more[i] == Some(ClassRef(n));
            assert names[i] == n;
          }
        }
      }
      Ok(Provider(p.classNamesToSkip + set n | n in names))
  }

  /** Adding two lists of classes one after the other is the same as adding
      both at once, and fails exactly when one of the lists holds a `null`. */
  lemma PlusSkippedClassesCompose(p: Provider, a: seq<Option<ClassRef>>, b: seq<Option<ClassRef>>)
    ensures PlusSkippedClasses(p, a + b).Ok? <==> PlusSkippedClasses(p, a).Ok? && PlusSkippedClasses(p, b).Ok?
    ensures PlusSkippedClasses(p, a + b).Ok? ==>
      PlusSkippedClasses(PlusSkippedClasses(p, a).value, b) == PlusSkippedClasses(p, a + b)
  {
    var ab := a + b;
    assert forall i :: 0 <= i < |a| ==> ab[i] == a[i];
    assert forall i :: 0 <= i < |b| ==> ab[|a| + i] == b[i];
    if PlusSkippedClasses(p, ab).Ok? {
      var q1 := PlusSkippedClasses(p, a).value;
      var q2 := PlusSkippedClasses(q1, b).value;
      var q := PlusSkippedClasses(p, ab).value;
      forall n ensures n in q2.classNamesToSkip <==> n in q.classNamesToSkip {
        if exists i :: 0 <= i < |ab| && ab[i] == Some(ClassRef(n)) {
          var i :| 0 <= i < |ab| && ab[i] == Some(ClassRef(n));
          if i >= |a| {
            assert b[i - |a|] == ab[i];
          }
        }
      }
      assert q2.classNamesToSkip == q.classNamesToSkip;
    }
  }

  /** The index `get` picks: the first frame whose class is not skipped,
      or `|stack|` when every frame is skipped. */
  function FirstUnskipped(skip: set<string>, stack: seq<StackTraceElement>): (k: nat)
    ensures k <= |stack|
    ensures forall j :: 0 <= j < k ==> stack[j].className in skip
    ensures k < |stack| ==> stack[k].className !in skip
  {
    if |stack| == 0 then 0
    else if stack[0].className !in skip then 0
    else 1 + FirstUnskipped(skip, stack[1..])
  }

  /** `get`: the nearest frame to the top of the stack that is not skipped;
      an `AssertionError` when there is none. */
  method GetCaller(p: Provider, stack: seq<StackTraceElement>) returns (r: Result<StackTraceElement, Exception>)
    ensures r.Err? <==> forall i :: 0 <= i < |stack| ==> stack[i].className in p.classNamesToSkip
    ensures r.Ok? ==> exists i :: 0 <= i < |stack| && stack[i] == r.value
                        && r.value.className !in p.classNamesToSkip
                        && forall j :: 0 <= j < i ==> stack[j].className in p.classNamesToSkip
  {
    var i := 0;
    while i < |stack|
      invariant 0 <= i <= |stack|
      invariant forall j :: 0 <= j < i ==> stack[j].className in p.classNamesToSkip
    {
      var className := stack[i].className;
      if className !in p.classNamesToSkip {
        return Ok(stack[i]);
      }
      i := i + 1;
    }
    return Err(AssertionError);
  }

  /** The frame `GetCaller` promises is the one at `FirstUnskipped`: only
      one index has an unskipped class with every frame above it skipped. */
  lemma SelectedFrameIsFirstUnskipped(skip: set<string>, stack: seq<StackTraceElement>, i: nat)
    requires i < |stack| && stack[i].className !in skip
    requires forall j :: 0 <= j < i ==> stack[j].className in skip
    ensures i == FirstUnskipped(skip, stack)
  {
  }

  /** Skipping more classes never selects a frame nearer the top. */
  lemma SkippingMoreNeverSelectsEarlier(
    skip: set<string>, more: set<string>, stack: seq<StackTraceElement>)
    requires skip <= more
    ensures FirstUnskipped(skip, stack) <= FirstUnskipped(more, stack)
  {
  }

  /** The default provider passes over the frames of the provider itself
      (the frame of `get` sits on top of the stack it inspects) and picks
      the first frame of any other class. */
  lemma DefaultSkipsOnlyItself(own: seq<StackTraceElement>, rest: seq<StackTraceElement>)
    requires forall j :: 0 <= j < |own| ==> own[j].className == OwnClassName
    requires |rest| > 0 && rest[0].className != OwnClassName
    ensures FirstUnskipped(DefaultInstance.classNamesToSkip, own + rest) == |own|
  {
    var stack := own + rest;
    assert stack[|own|] == rest[0];
    forall j | 0 <= j < |own| ensures stack[j].className in DefaultInstance.classNamesToSkip {
      assert stack[j] == own[j];
    }
  }
}

=== FILE: stack_frames.dfy ===
/** `ExceptionUtils.getStackFrames`: a printed stack trace cut into its
    lines with `java.util.StringTokenizer`, whose delimiters are the
    characters of the platform line separator. A tokenizer treats every
    delimiter character alike and never returns an empty token, so runs of
    separator characters (as in "\r\n", or a blank line) produce no frame.

    The line separator (`System.lineSeparator()`) and the printed trace
    (`Throwable.printStackTrace`) are inputs. */
module StackFrames {
  import opened Common

  /** The characters a tokenizer built with delimiter string `sep` splits on. */
  function Delimiters(sep: string): set<char> {
    set c | c in sep
  }

  /** The tokens of `s`: its maximal runs of non-delimiter characters, in
      order. This is the reference definition the tokenizer loop is checked
      against. */
  function Tokens(s: string, d: set<char>): seq<string>
    decreases |s|
  {
    if |s| == 0 then []
    else if s[0] in d then Tokens(s[1..], d)
    else
      var k := RunLength(s, d);
      [s[..k]] + Tokens(s[k..], d)
  }

  /** A frame: a non-empty line with no delimiter in it. */
  predicate IsFrame(t: string, d: set<char>) {
    |t| > 0 && forall j :: 0 <= j < |t| ==> t[j] !in d
  }

  /** `s` with every delimiter character removed. */
  function Strip(s: string, d: set<char>): (r: string)
    ensures forall j :: 0 <= j < |r| ==> r[j] !in d
  {
    if |s| == 0 then []
    else if s[0] in d then Strip(s[1..], d)
    else [s[0]] + Strip(s[1..], d)
  }

  /** The frames laid end to end. */
  function Concat(ts: seq<string>): string {
    if |ts| == 0 then [] else ts[0] + Concat(ts[1..])
  }

  // ---------------------------------------------------------------------------
  // The tokenizer loop
  // ---------------------------------------------------------------------------

  lemma TokensAtDelimiter(s: string, d: set<char>, pos: nat)
    requires pos < |s| && s[pos] in d
    ensures Tokens(s[pos..], d) == Tokens(s[pos + 1..], d)
  {
  }

  lemma TokensAtToken(s: string, d: set<char>, start: nat, end: nat)
    requires start < end <= |s|
    requires forall j :: start <= j < end ==> s[j] !in d
    requires end == |s| || s[end] in d
    ensures Tokens(s[start..], d) == [s[start..end]] + Tokens(s[end..], d)
  {
    var t := s[start..];
    var k := RunLength(t, d);
    assert k == end - start;
    assert t[..k] == s[start..end];
    assert t[k..] == s[end..];
  }

  /** `getStackFrames(String)`: the tokenizer loop. It skips delimiter
      characters, and at each non-delimiter scans to the end of its run and
      emits that run as a frame. */
  method GetStackFrames(stackTrace: string, lineSeparator: string) returns (frames: seq<string>)
    ensures frames == Tokens(stackTrace, Delimiters(lineSeparator))
    ensures forall i :: 0 <= i < |frames| ==> IsFrame(frames[i], Delimiters(lineSeparator))
    ensures Concat(frames) == Strip(stackTrace, Delimiters(lineSeparator))
  {
    var d := Delimiters(lineSeparator);
    var s := stackTrace;
    frames := [];
    var pos := 0;
    while pos < |s|
      invariant 0 <= pos <= |s|
      invariant frames + Tokens(s[pos..], d) == Tokens(s, d)
      decreases |s| - pos
    {
      if s[pos] in d {
        TokensAtDelimiter(s, d, pos);
        pos := pos + 1;
      } else {
        var start := pos;
        while pos < |s| && s[pos] !in d
          invariant start <= pos <= |s|
          invariant forall j :: start <= j < pos ==> s[j] !in d
          decreases |s| - pos
        {
          pos := pos + 1;
        }
        TokensAtToken(s, d, start, pos);
        frames := frames + [s[start..pos]];
      }
    }
    assert s[pos..] == [];
    TokensAreFrames(s, d);
    TokensConcat(s, d);
  }

  /** `getStackFrames(Throwable)`: no frames for a null throwable, else the
      frames of its printed trace (`None` stands for null). */
  method GetStackFramesOf(printedTrace: Option<string>, lineSeparator: string) returns (frames: seq<string>)
    ensures printedTrace.None? ==> frames == []
    ensures printedTrace.Some? ==> frames == Tokens(printedTrace.value, Delimiters(lineSeparator))
  {
    if printedTrace.None? {
      return [];
    }
    frames := GetStackFrames(printedTrace.value, lineSeparator);
  }

  // ---------------------------------------------------------------------------
  // Properties of the tokens
  // ---------------------------------------------------------------------------

  /** Every token is a frame: non-empty, with no separator character. */
  lemma {:induction false} TokensAreFrames(s: string, d: set<char>)
    ensures forall i :: 0 <= i < |Tokens(s, d)| ==> IsFrame(Tokens(s, d)[i], d)
    decreases |s|
  {
    if |s| > 0 {
      if s[0] in d {
        TokensAreFrames(s[1..], d);
      } else {
        var k := RunLength(s, d);
        TokensAreFrames(s[k..], d);
        var rest := Tokens(s[k..], d);
        assert Tokens(s, d) == [s[..k]] + rest;
        forall i | 0 <= i < |Tokens(s, d)| ensures IsFrame(Tokens(s, d)[i], d) {
          if i > 0 {
            assert Tokens(s, d)[i] == rest[i - 1];
          }
        }
      }
    }
  }

  lemma {:induction false} StripAppend(a: string, b: string, d: set<char>)
    ensures Strip(a + b, d) == Strip(a, d) + Strip(b, d)
  {
    if |a| == 0 {
      assert a + b == b;
    } else {
      assert (a + b)[0] == a[0];
      assert (a + b)[1..] == a[1..] + b;
      StripAppend(a[1..], b, d);
    }
  }

  lemma {:induction false} StripOfFrame(t: string, d: set<char>)
    requires forall j :: 0 <= j < |t| ==> t[j] !in d
    ensures Strip(t, d) == t
  {
    if |t| > 0 {
      StripOfFrame(t[1..], d);
      assert t == [t[0]] + t[1..];
    }
  }

  /** The frames laid end to end are the trace with its separator characters
      removed: nothing but separators is lost, and nothing is reordered. */
  lemma {:induction false} TokensConcat(s: string, d: set<char>)
    ensures Concat(Tokens(s, d)) == Strip(s, d)
    decreases |s|
  {
    if |s| > 0 {
      if s[0] in d {
        TokensConcat(s[1..], d);
      } else {
        var k := RunLength(s, d);
        var head, tail := s[..k], s[k..];
        TokensConcat(tail, d);
        var ts := Tokens(s, d);
        assert ts == [head] + Tokens(tail, d);
        assert ts[0] == head && ts[1..] == Tokens(tail, d);
        assert Concat(ts) == head + Concat(Tokens(tail, d));
        StripOfFrame(head, d);
        assert head + tail == s;
        StripAppend(head, tail, d);
      }
    }
  }

  /** A non-empty trace with no separator character is one frame. */
  lemma SingleLine(s: string, d: set<char>)
    requires |s| > 0
    requires forall j :: 0 <= j < |s| ==> s[j] !in d
    ensures Tokens(s, d) == [s]
  {
    var k := RunLength(s, d);
    assert k == |s|;
    assert s[..k] == s;
    assert s[k..] == [];
  }

  /** A trace made only of separator characters (or empty) has no frames. */
  lemma {:induction false} OnlySeparators(s: string, d: set<char>)
    requires forall j :: 0 <= j < |s| ==> s[j] in d
    ensures Tokens(s, d) == []
    decreases |s|
  {
    if |s| > 0 {
      OnlySeparators(s[1..], d);
    }
  }

  /** Delimiter characters in front of a text add no frame. */
  lemma {:induction false} TokensAfterSeparators(sep: string, rest: string, d: set<char>)
    requires forall j :: 0 <= j < |sep| ==> sep[j] in d
    ensures Tokens(sep + rest, d) == Tokens(rest, d)
    decreases |sep|
  {
    if |sep| > 0 {
      var s := sep + rest;
      assert s[0] in d;
      assert s[1..] == sep[1..] + rest;
      TokensAfterSeparators(sep[1..], rest, d);
    } else {
      assert sep + rest == rest;
    }
  }

  lemma TokensOfFramePrefix(t: string, sep: string, rest: string, d: set<char>)
    requires IsFrame(t, d) && |sep| > 0
    requires forall j :: 0 <= j < |sep| ==> sep[j] in d
    ensures Tokens(t + sep + rest, d) == [t] + Tokens(rest, d)
  {
    var u := sep + rest;
    var s := t + u;
    assert t + sep + rest == s;
    assert s[|t|] == u[0] == sep[0];
    forall j | 0 <= j < |t| ensures s[j] !in d {
      assert s[j] == t[j];
    }
    TokensAtToken(s, d, 0, |t|);
    assert s[0..] == s;
    assert s[..|t|] == t;
    assert s[|t|..] == u;
    TokensAfterSeparators(sep, rest, d);
  }

  /** Re-joining frames with a separator made of delimiter characters and
      splitting again gives the same frames. */
  lemma {:induction false} SplitJoinLines(ts: seq<string>, sep: string, d: set<char>)
    requires |sep| > 0
    requires forall j :: 0 <= j < |sep| ==> sep[j] in d
    requires forall i :: 0 <= i < |ts| ==> IsFrame(ts[i], d)
    ensures Tokens(Join(ts, sep), d) == ts
    decreases |ts|
  {
    if |ts| == 1 {
      SingleLine(ts[0], d);
    } else if |ts| > 1 {
      TokensOfFramePrefix(ts[0], sep, Join(ts[1..], sep), d);
      SplitJoinLines(ts[1..], sep, d);
      assert ts == [ts[0]] + ts[1..];
    }
  }

  /** The lines printed one per line as `println` prints them: every line,
      the last included, ended by `sep`. */
  function Terminated(ts: seq<string>, sep: string): (r: string)
    ensures |r| == |Concat(ts)| + |ts| * |sep|
  {
    if |ts| == 0 then "" else ts[0] + sep + Terminated(ts[1..], sep)
  }

  /** Splitting text whose lines each end with a separator made of
      delimiter characters gives the lines back. */
  lemma {:induction false} SplitTerminatedLines(ts: seq<string>, sep: string, d: set<char>)
    requires |sep| > 0
    requires forall j :: 0 <= j < |sep| ==> sep[j] in d
    requires forall i :: 0 <= i < |ts| ==> IsFrame(ts[i], d)
    ensures Tokens(Terminated(ts, sep), d) == ts
    decreases |ts|
  {
    if |ts| > 0 {
      TokensOfFramePrefix(ts[0], sep, Terminated(ts[1..], sep), d);
      SplitTerminatedLines(ts[1..], sep, d);
      assert ts == [ts[0]] + ts[1..];
    }
  }

  /** Tokenizing is idempotent: printing the frames one per line, each
      line ended by the whole platform line separator, and tokenizing that
      text gives the frames back. So does joining them with the separator
      between frames only. */
  lemma FramesRoundTrip(s: string, lineSeparator: string)
    requires |lineSeparator| > 0
    ensures Tokens(Terminated(Tokens(s, Delimiters(lineSeparator)), lineSeparator), Delimiters(lineSeparator))
         == Tokens(s, Delimiters(lineSeparator))
    ensures Tokens(Join(Tokens(s, Delimiters(lineSeparator)), lineSeparator), Delimiters(lineSeparator))
         == Tokens(s, Delimiters(lineSeparator))
  {
    var d := Delimiters(lineSeparator);
    TokensAreFrames(s, d);
    assert forall j :: 0 <= j < |lineSeparator| ==> lineSeparator[j] in d;
    SplitTerminatedLines(Tokens(s, d), lineSeparator, d);
    SplitJoinLines(Tokens(s, d), lineSeparator, d);
  }
}
